=== FILE: README.md ===
# AscentViewer main window: selection and render state

This project models the core of the AscentViewer image viewer's main window
(`MainUi` in `ascv_main.py`). That core covers three things:

- **Opening.** Opening an image (`openImage`) or a folder (`openDir`) builds
  the folder's navigation list (`dirMakeImageList`): one glob per supported
  extension (`png`, `jpg`, `jpeg`, `bmp`, `gif`), concatenated in that order,
  with `\` turned into `/`, then stably sorted by the lower-cased path.
- **Navigation.** Back and forward (`prevImage`, `nextImage`) move through the
  list and wrap round at either end.
- **Rendering.** `updateFunction(0)` writes a thumbnail into a scratch file and
  shows the file at full quality. On every resize, `updateFunction(1)` arms a
  250 ms timer if it is not already running and redraws from the thumbnail.
  The timeout (`updateTimerFunc`) redraws the current file at full quality and
  stops the timer.

The window is an immutable `ViewerState` record, and every event is a pure
function from one state to the next (`Viewer.Apply`). A slot that raises a
Python exception is modelled as a `Raised` step. The exception is logged by
the excepthook (lines 92 and 686-689), and the window keeps running on the
fields the slot had already assigned, so the model keeps that partially
updated state. The exceptions modelled are:

- `ValueError` from `list.index`;
- `IndexError` from list indexing;
- `AttributeError` from reading the thumbnail slot before the first render.

Pixels are abstracted to a `Display` tag: which file is shown, and whether it
comes from the thumbnail or at full quality. Several things are inputs rather
than effects:

- the dialogs' results;
- the entries `glob.glob` enumerates for the folder, in enumeration order;
- the clock.

Modules:

- `CaseOrder`: ASCII lower-casing and Python string order.
- `StableSort`: `sort(key=str.lower)`.
- `Paths`: folder and file name of an opened path.
- `DirScan`: the globs and the navigation list.
- `Viewer`: the state and the transitions.
- `ViewerProps`: properties across transitions.
- `Timeline`: resizes over time.
- `Findings`: the code as written against the corrected model.
- `Scenario`: a worked run.

Four behaviours of the code are easy to misread:

- **The timer is not a debounce.** An armed timer is never restarted. A burst
  of resizes therefore gets its full-quality redraw 250 ms after its *first*
  resize, not its last. A drag longer than 250 ms gets redraws part-way
  through (`Timeline.LongDragUpgradesMidway`).
- **Selecting a new image does not cancel the timer.** The timeout never
  shows a stale file, because it reads the path that is current when it fires
  (`ViewerProps.NoStaleUpgrade`). A resize, though, shows the scratch
  thumbnail, which only a full render rewrites. Three branches of `openImage`
  change the current path without rendering: a reopen within the known
  folder, an empty rescan, and a rescan that misses the file. After one of
  them, the next resize shows the previous file's thumbnail
  (`ViewerProps.ResizeShowsPreviousThumbnail`).
- **The two folder spellings differ.** `openDir` records the folder without a
  trailing `/`, and `openImage` records it with one. Moving between the two
  kinds of open therefore rescans the folder
  (`ViewerProps.OpenDirThenImageRescans`, `ViewerProps.OpenImageThenDirRescans`).
  The exception is a file-system root (`/`, `C:/`), where both spellings are
  the same string and neither order rescans (`ViewerProps.RootSpellingsAgree`).
- **A thumbnail on screen always has its upgrade pending.** Only a resize shows
  the thumbnail, and it arms the timer first; only the timeout stops the
  timer, after a full-quality redraw (`ViewerProps.EventKeepsPendingUpgrade`).

The event loop (`Viewer.Apply`) runs `openImage` as written
(`Viewer.OpenImageAsWritten`), so every property stated over events is about
the program as it is. The corrected open (`Viewer.OpenImage`) appears only in
`Findings`, where it is compared with the code as written.

## Model

| member | source | states |
|---|---|---|
| CaseOrder.LexLeMeansFirstDifference | source/AscentViewer-files/ascv_main.py:538 | the string comparison the sort uses holds exactly when one string is a prefix of the other or the first differing character is smaller |
| CaseOrder.LexLeReflexive | source/AscentViewer-files/ascv_main.py:538 | every key is ordered before or equal to itself |
| CaseOrder.LexLeTotal | source/AscentViewer-files/ascv_main.py:538 | any two keys are comparable |
| CaseOrder.LexLeAntisymmetric | source/AscentViewer-files/ascv_main.py:538 | two keys ordered both ways are equal |
| CaseOrder.LexLeTransitive | source/AscentViewer-files/ascv_main.py:538 | the key order is transitive, so sorting by it is well defined |
| StableSort.Insert | source/AscentViewer-files/ascv_main.py:538 | inserting one path adds exactly that path to the multiset of entries |
| StableSort.Sort | source/AscentViewer-files/ascv_main.py:538 | sorting is a permutation of its input |
| StableSort.InsertSorted | source/AscentViewer-files/ascv_main.py:538 | inserting into a sorted list keeps it sorted |
| StableSort.SortSorted | source/AscentViewer-files/ascv_main.py:538 | the result is non-decreasing by lower-cased path |
| StableSort.SortStable | source/AscentViewer-files/ascv_main.py:538 | paths with equal lower-cased forms keep their original relative order |
| StableSort.SortedUnique | source/AscentViewer-files/ascv_main.py:538 | two sorted lists with the same entries per key are equal |
| StableSort.SortIsTheStableSort | source/AscentViewer-files/ascv_main.py:538 | any sorted arrangement that keeps each key's entries in input order is the sort's result |
| StableSort.CaseInsensitiveOrderExample | source/AscentViewer-files/ascv_main.py:538 | `B.png, a.jpg, C.gif` sort to `a.jpg, B.png, C.gif`, although plain string order puts `B` before `a` |
| Paths.LastSlash | source/AscentViewer-files/ascv_main.py:484 | the position of the last '/' in the path, or -1 when there is none |
| Paths.ImageFolder | source/AscentViewer-files/ascv_main.py:484 | the folder followed by the base name gives back the path; the folder ends in '/' and the base name holds no '/' |
| Paths.ImageFolderOfChild | source/AscentViewer-files/ascv_main.py:484 | for a file `name` inside folder `d`, the folder is `d/` and the base name is `name` |
| Paths.DeleteAll | source/AscentViewer-files/ascv_main.py:484 | `str.replace(pat, "")` never lengthens the string |
| Paths.ImageFolderByReplace | source/AscentViewer-files/ascv_main.py:484 | the folder as written: for a path without '/' nothing is left; otherwise it is the part before the last '/' with every copy of the file name deleted, followed by that '/' |
| Paths.DeleteNameSplitsAtLastSlash | source/AscentViewer-files/ascv_main.py:484 | deleting the base name removes the trailing name and keeps the last '/', working on the part before it separately |
| Paths.DeleteAllSuffixOnly | source/AscentViewer-files/ascv_main.py:484 | when the pattern occurs only as the suffix, the replace cuts just that suffix off |
| Paths.ByReplaceAgreesWhenNameIsUnique | source/AscentViewer-files/ascv_main.py:484 | the replace-based folder is correct when the file name does not also occur earlier in the path |
| Paths.DeleteAllAroundSlash | source/AscentViewer-files/ascv_main.py:484 | deleting a name without '/' from `d/t` deletes it from `d` and from `t` separately, keeping the '/' |
| Paths.ByReplaceOfChild | source/AscentViewer-files/ascv_main.py:484 | for a file `name` inside `d`, the replace-based folder is `d` with every occurrence of `name` deleted, followed by '/' |
| Paths.DeleteAllThenSlashDiffers | source/AscentViewer-files/ascv_main.py:484 | deleting a name without '/' and appending '/' never gives back the string itself |
| Paths.ByReplaceOfChildIsNotParent | source/AscentViewer-files/ascv_main.py:484 | the replace-based folder of a file inside `d` is never `d` |
| Paths.ByReplaceMangledFolder | source/AscentViewer-files/ascv_main.py:484 | for `/ab.png/b.png` the replace gives the folder `/a/` instead of `/ab.png/` |
| DirScan.Glob | source/AscentViewer-files/ascv_main.py:534-535 | one `*.ext` glob keeps exactly the entries ending in `.ext` |
| DirScan.GlobAll | source/AscentViewer-files/ascv_main.py:531-535 | the concatenated globs hold exactly the entries ending in one of the extensions |
| DirScan.GlobNone | source/AscentViewer-files/ascv_main.py:534-535 | a glob that matches no entry contributes nothing |
| DirScan.NotTwoExtensions | source/AscentViewer-files/ascv_main.py:531 | a path ending in one supported extension ends in no other |
| DirScan.GlobOfImage | source/AscentViewer-files/ascv_main.py:531-535 | an image file is found by its own extension's glob only |
| DirScan.GlobAllUnrolled | source/AscentViewer-files/ascv_main.py:531-535 | the globs are concatenated in the order png, jpg, jpeg, bmp, gif |
| DirScan.GlobAllRepeats | source/AscentViewer-files/ascv_main.py:534-535 | one entry appears in the concatenation once for each pattern it matches |
| DirScan.MatchCountFileTypes | source/AscentViewer-files/ascv_main.py:531 | an image file matches exactly one of the five patterns, and any other entry matches none |
| DirScan.MatchCountOfImage | source/AscentViewer-files/ascv_main.py:531 | a path ending in one of the supported extensions matches exactly one of the five patterns |
| DirScan.GlobAllOne | source/AscentViewer-files/ascv_main.py:531-535 | a single entry is listed once if it is an image file and not at all otherwise |
| DirScan.GlobsCountEachImageOnce | source/AscentViewer-files/ascv_main.py:531-535 | the globs list every image file of the folder exactly once and nothing else, so no file is listed twice |
| DirScan.Normalize | source/AscentViewer-files/ascv_main.py:537 | every `\` becomes `/`, length and all other characters are unchanged |
| DirScan.ImageList | source/AscentViewer-files/ascv_main.py:531-538 | the list is a permutation of the normalised glob results: a path is listed iff it is the normalised form of an image file of the folder, and no entry is empty |
| DirScan.ImageListSorted | source/AscentViewer-files/ascv_main.py:538 | the navigation list is sorted by lower-cased path |
| DirScan.ImageListStable | source/AscentViewer-files/ascv_main.py:538 | paths differing only in case keep their glob order |
| DirScan.ImageListEmpty | source/AscentViewer-files/ascv_main.py:540 | the rescan finds nothing exactly when no entry of the folder is an image file |
| DirScan.ImageListCharacterised | source/AscentViewer-files/ascv_main.py:531-538 | the list is the only sorted arrangement of the glob results that keeps case-variants in glob order |
| DirScan.IndexOf | source/AscentViewer-files/ascv_main.py:549 | `list.index`: the first position of the path, or the ValueError case exactly when the path is not in the list |
| Viewer.PyIndex | source/AscentViewer-files/ascv_main.py:570 | Python list indexing, with negative positions counting from the end and IndexError outside `-len..len-1` |
| Viewer.Render | source/AscentViewer-files/ascv_main.py:424-454 | with a current file, the thumbnail slot holds that file and the file is shown at full quality; with none, nothing changes; the timer is untouched |
| Viewer.Resize | source/AscentViewer-files/ascv_main.py:455-466 | the timer is armed for now+250 only when inactive and is otherwise left alone; the label shows the scratch thumbnail, or AttributeError is raised if no thumbnail was ever written; nothing happens without a current file |
| Viewer.TimerFired | source/AscentViewer-files/ascv_main.py:468-472 | the timeout shows the current file at full quality and stops the timer, leaving the selection alone |
| Viewer.Select | source/AscentViewer-files/ascv_main.py:553-558 | the chosen entry becomes the current file and the index, navigation is enabled, and a non-empty entry is shown at full quality with its thumbnail written; folder, list and timer are unchanged |
| Viewer.Adopt | source/AscentViewer-files/ascv_main.py:540-560 | an empty list changes nothing; otherwise the list replaces the old one and entry 0 or the opened file's first position is selected and shown, or ValueError is raised with only the list replaced; a completed adoption leaves the window valid |
| Viewer.MakeImageList | source/AscentViewer-files/ascv_main.py:530-560 | an empty rescan changes nothing; otherwise the new list replaces the old one, and entry 0 (folder open) or the opened file's first position (image open) is selected, shown and navigation enabled; if the opened file is not in the list, ValueError is raised after the list was replaced |
| Viewer.OpenDir | source/AscentViewer-files/ascv_main.py:506-528 | a cancelled dialog or the current folder changes nothing; another folder is recorded and rescanned, selecting its first entry when it has images |
| Viewer.OpenImageIn | source/AscentViewer-files/ascv_main.py:489-502 | the computed folder becomes the current folder and path and timer are kept; when it equals the known non-empty folder there is no rescan: only the index moves, to the file's first position, or ValueError is raised with nothing changed; otherwise the folder is rescanned for an opened image |
| Viewer.OpenImageAsWritten | source/AscentViewer-files/ascv_main.py:475-504 | a cancelled dialog clears the current path; otherwise the path becomes current and the replace-based folder the current folder; a file of the known folder only moves the index to its first position (display, thumbnail and list untouched) or raises ValueError; any other folder is rescanned for the opened image |
| Viewer.OpenImage | source/AscentViewer-files/ascv_main.py:475-504 | the corrected open of the second finding, not the code as written: the folder is the path up to its last '/', a cancelled dialog clears the path, the timer is untouched |
| Viewer.NextImage | source/AscentViewer-files/ascv_main.py:573-581 | the index becomes i+1, or 0 from the last position; IndexError is raised exactly when Python cannot index the list there, with only the index changed; otherwise that entry becomes current and is shown at full quality; for a valid window this is (i+1) mod n; folder, list and timer are unchanged |
| Viewer.PrevImage | source/AscentViewer-files/ascv_main.py:563-571 | the index becomes i-1, or n-1 from position 0; IndexError is raised exactly when Python cannot index the list there, with only the index changed; otherwise that entry becomes current and is shown at full quality; for a valid window this is (i-1) mod n; folder, list and timer are unchanged |
| Viewer.Apply | source/AscentViewer-files/ascv_main.py:184-397 | the wiring of the actions (184-211) and of the timer and label resize (393-397): an image open records the chosen path; a folder open always completes and changes nothing when cancelled or the folder is the current one; back and forward keep folder and list and leave navigation enabled; only a resize arms the timer, and it does so whenever there is a current file; a timeout stops the timer and shows the current file at full quality; disabled actions and an inactive timer cannot fire |
| ViewerProps.OpenImageSameFolder | source/AscentViewer-files/ascv_main.py:484-498 | reopening a file whose replace-based folder is the current folder keeps list, navigation, display and thumbnail, and moves the index to the file's first position, or raises ValueError with the index kept when it is not listed; the window stays valid |
| ViewerProps.OpenImageSameFolderIgnoresListing | source/AscentViewer-files/ascv_main.py:484-498 | reopening within the current folder does not rescan: the folder's contents do not affect the result |
| ViewerProps.OpenImageOtherFolder | source/AscentViewer-files/ascv_main.py:484-502 | opening a file whose replace-based folder is another one rescans; an empty rescan keeps list and index; otherwise the file is selected, or ValueError leaves the old index against the new list |
| ViewerProps.OpenDirThenImageRescans | source/AscentViewer-files/ascv_main.py:484-495 | after opening folder `d`, opening `d/name` records `d` with `name` deleted plus '/', which is never `d`, and rescans |
| ViewerProps.RootSpellingsAgree | source/AscentViewer-files/ascv_main.py:484-498 | at a root `/` or `C:/` the replace-based folder of a file is the root itself, so after opening the root, opening one of its files does not rescan (the listing is ignored), and opening the root again changes nothing |
| ViewerProps.OpenImageThenDirRescans | source/AscentViewer-files/ascv_main.py:515-520 | after opening a file of `d/`, opening folder `d` rescans |
| ViewerProps.NextWraps | source/AscentViewer-files/ascv_main.py:575-578 | forward from the last entry goes to the first and otherwise advances by one |
| ViewerProps.PrevWraps | source/AscentViewer-files/ascv_main.py:565-568 | back from the first entry goes to the last and otherwise steps back by one |
| ViewerProps.NavigationKeepsValid | source/AscentViewer-files/ascv_main.py:563-581 | back and forward keep the index inside the list |
| ViewerProps.NextThenPrev | source/AscentViewer-files/ascv_main.py:563-581 | forward then back returns to the same entry, shown at full quality |
| ViewerProps.PrevThenNext | source/AscentViewer-files/ascv_main.py:563-581 | back then forward returns to the same entry, shown at full quality |
| ViewerProps.NextThenPrevRestoresSettledWindow | source/AscentViewer-files/ascv_main.py:563-581 | a window showing its selection is left exactly as it was by forward then back |
| ViewerProps.StartIsValid | source/AscentViewer-files/ascv_main.py:89-90 | the window starts with no folder, no file, navigation disabled and no timer |
| ViewerProps.EventKeepsValid | source/AscentViewer-files/ascv_main.py:475-581 | every event keeps the index inside the list, except an image open of another folder whose rescan misses the file (ValueError) |
| ViewerProps.OnlyResizeAndTimeoutTouchTimer | source/AscentViewer-files/ascv_main.py:461-472 | only a resize arms the timer and only its timeout stops it; opening and navigating leave it alone |
| ViewerProps.OnlyResizeShowsThumbnail | source/AscentViewer-files/ascv_main.py:424-472 | after any event other than a resize, a thumbnail on screen is the one that was already there |
| ViewerProps.EventKeepsPendingUpgrade | source/AscentViewer-files/ascv_main.py:424-472 | every event keeps the rule that a thumbnail on screen has the timer running |
| ViewerProps.ResizeShowsPreviousThumbnail | source/AscentViewer-files/ascv_main.py:461-466 | after an open that does not render (same-folder reopen, empty rescan or missed file), the timeout shows the new file but the next resize shows the previous file's thumbnail |
| ViewerProps.NoStaleUpgrade | source/AscentViewer-files/ascv_main.py:468-472 | a timer armed for an earlier file upgrades the file selected when it fires |
| ViewerProps.UpperCaseExtensionMissed | source/AscentViewer-files/ascv_main.py:531-535 | the case-sensitive globs skip `C.PNG` |
| ViewerProps.FailedRescanStep | source/AscentViewer-files/ascv_main.py:484-495 | opening `/q/C.PNG` from `/p/` raises ValueError after replacing the list, keeping index 1 |
| ViewerProps.FailedRescanLeavesStaleIndex | source/AscentViewer-files/ascv_main.py:575-580 | after that ValueError the index is out of range with navigation enabled, and the next forward press raises IndexError |
| Timeline.ArmedBurst | source/AscentViewer-files/ascv_main.py:461-466 | resizes before an armed deadline neither fire nor move it, and the label shows the thumbnail |
| Timeline.BurstUpgradesOnce | source/AscentViewer-files/ascv_main.py:461-472 | a burst within 250 ms of its first resize is armed once, gets no redraw during the burst, and gets one full-quality redraw afterwards |
| Timeline.ArmedDragUpgrades | source/AscentViewer-files/ascv_main.py:461-472 | a drag reaching the armed deadline gets a full-quality redraw during the drag |
| Timeline.LongDragUpgradesMidway | source/AscentViewer-files/ascv_main.py:461-472 | a drag lasting 250 ms gets a full-quality redraw before it ends: the timer is not a debounce |
| Findings.CorrectedOpenSameFolder | source/AscentViewer-files/ascv_main.py:496-498 | the corrected open, reopening a file of the current folder, keeps the list and shows the file at its first position, or raises ValueError when it is not listed |
| Findings.AsWrittenOnlyMissesRedraw | source/AscentViewer-files/ascv_main.py:496-498 | where the folder computations agree, the code as written differs from the corrected open only by the missing redraw |
| Findings.SiblingFolderByReplace | source/AscentViewer-files/ascv_main.py:484 | for `/p/b.png` the replace-based folder is the right one, `/p/` |
| Findings.SameFolderOpenLeavesStaleDisplay | source/AscentViewer-files/ascv_main.py:496-498 | as written, opening `/p/b.png` while `/p/a.png` is shown moves index and path but keeps `a.png` on screen; the corrected open shows `b.png` |
| Scenario.GlobAllPngJpgGif | source/AscentViewer-files/ascv_main.py:531-535 | a `.png`, a `.jpg` and a `.gif` come out of the globs in that order |
| Scenario.ScenarioImageList | source/AscentViewer-files/ascv_main.py:531-538 | a folder holding `B.png, a.jpg, C.gif` is listed as `a.jpg, B.png, C.gif` |
| Scenario.OpenDirScenario | source/AscentViewer-files/ascv_main.py:506-581 | opening that folder shows `a.jpg`; forward twice shows `C.gif`; one more forward wraps round to `a.jpg` |

## Left out

- **Widgets.** Widgets, menus, the splitter, status bar, labels and dialogs
  are left out, along with their layout. A dialog is reduced to the path it
  returns, with `""` for cancel. The back, forward and copy-details actions
  are enabled together, so they are modelled as one flag.
- **Other windows and slots.** Logging, configuration, localisation, the
  settings, log, help and about windows, `dumpJson`, `closeEvent`,
  `simulateMenuOpen` and the bottom-panel slots are outside the core.
- **Pixels.** Image decoding and thumbnailing with PIL, the 500x500 scratch
  file, pixmap scaling to the label size, and the file name, date and
  dimension labels are abstracted to the `Display` tag. Decode and file-system
  errors raised by PIL or `os.path.getmtime` are not modelled, because they
  depend on file contents.
- **The clock and event loop.** Time is an input. `Timeline` assumes that a
  timeout falls due at or before the next event and is delivered before that
  event; the Qt event loop is not modelled.
- **The file system.** `glob.glob` is modelled as a suffix filter over the
  directory listing, which is an input. Left out:
  - glob's hiding of dot-files;
  - case-insensitive matching on Windows;
  - how the folder and pattern are joined with `/`;
  - glob reading `[`, `*` and `?` in the folder name as wildcards. For a
    folder such as `/pics [old]` the entries enumerated are then another
    folder's, or none, and the input listing stands for those.

  The enumeration order is whatever the input listing says.
- CaseOrder.Lower: `str.lower` is modelled for ASCII letters only. Non-ASCII
  case mappings, which can change a string's length, are not modelled.
- **Attributes assigned late.** `imageNumber` and `dirImageList` are first
  assigned by a scan, and the source reads them earlier only in the
  same-folder branch of `openImage`. The model starts them at `0` and `[]`.
  The `AttributeError` that a never-scanned list would raise is therefore
  reported as `NotInList`.
- **The last-slash split.** `os.path.basename` is modelled for `/`-separated
  paths, which is what the Qt dialogs return.

## Findings

| source | as written | input that shows it | evidently intended | confidence | as-written member | corrected member |
|---|---|---|---|---|---|---|
| source/AscentViewer-files/ascv_main.py:484 | the folder is the path with every occurrence of its base name deleted | `/ab.png/b.png` gives the folder `/a/` | the folder is the path up to its last `/`, here `/ab.png/` | not executed; high | Paths.ByReplaceMangledFolder | Paths.ImageFolder |
| source/AscentViewer-files/ascv_main.py:496-498 | reopening a file of the current folder sets `imageNumber` but never calls `updateFunction(0)` | showing `/p/a.png` of `[/p/a.png, /p/b.png]`, open `/p/b.png`: the path and index move to `b.png` while `a.png` stays on screen | the opened file is shown, as the rescan branch does when it finds the file (line 555) | not executed; medium | Findings.SameFolderOpenLeavesStaleDisplay | Findings.CorrectedOpenSameFolder |

The corrected definitions are `Paths.ImageFolder` for the folder and
`Viewer.OpenImage`, which uses it and redraws after a same-folder reopen. The
event loop (`Viewer.Apply`) and the properties over events keep the code as
written, `Paths.ImageFolderByReplace` and `Viewer.OpenImageAsWritten`, so they
describe the program as it runs.

=== FILE: case_order.dfy ===
/**
 * The key `str.lower` and Python's string ordering, as used by
 * `dirImageList_.sort(key=str.lower)`.
 *
 * Lower-casing is modelled for ASCII letters only; strings are compared
 * lexicographically by code point, a proper prefix sorting first.
 */
module CaseOrder {

  /** `str.lower` on one character, restricted to the ASCII letters. */
  function LowerChar(c: char): char
  {
    if 'A' <= c <= 'Z' then (c as int + 32) as char else c
  }

  /** `str.lower` on a whole string (ASCII letters only). */
  function Lower(s: string): (r: string)
    ensures |r| == |s|
  {
    seq(|s|, i requires 0 <= i < |s| => LowerChar(s[i]))
  }

  /** Python's `a <= b` on strings: code-point lexicographic order. */
  predicate LexLe(a: string, b: string)
    decreases |a|
  {
    |a| == 0 || (|b| > 0 && (a[0] < b[0] || (a[0] == b[0] && LexLe(a[1..], b[1..]))))
  }

  /** The usual description of lexicographic order: `a` is a prefix of `b`, or
      the first position where they differ has the smaller character in `a`. */
  ghost predicate FirstDifferenceLe(a: string, b: string)
  {
    (|a| <= |b| && a == b[..|a|])
    || exists k :: 0 <= k < |a| && k < |b| && a[..k] == b[..k] && a[k] < b[k]
  }

  lemma {:induction false} LexLeMeansFirstDifference(a: string, b: string)
    ensures LexLe(a, b) <==> FirstDifferenceLe(a, b)
    decreases |a|
  {
    if LexLe(a, b) {
      if |a| == 0 {
        assert a == b[..0];
      } else if a[0] < b[0] {
        assert a[..0] == b[..0];
      } else {
        var a', b' := a[1..], b[1..];
        LexLeMeansFirstDifference(a', b');
        if |a'| <= |b'| && a' == b'[..|a'|] {
          assert a[0] == b[0];
          assert a == [a[0]] + a';
          assert b[..|a|] == [b[0]] + b'[..|a'|];
        } else {
          var k :| 0 <= k < |a'| && k < |b'| && a'[..k] == b'[..k] && a'[k] < b'[k];
          assert a[..k + 1] == [a[0]] + a'[..k] == [b[0]] + b'[..k] == b[..k + 1];
        }
      }
    }
    if FirstDifferenceLe(a, b) && |a| > 0 {
      var a', b' := a[1..], b[1..];
      if |a| <= |b| && a == b[..|a|] {
        assert a[0] == b[0];
        assert a' == b'[..|a'|];
        LexLeMeansFirstDifference(a', b');
      } else {
        var k :| 0 <= k < |a| && k < |b| && a[..k] == b[..k] && a[k] < b[k];
        if k > 0 {
          assert a[0] == a[..k][0] == b[..k][0] == b[0];
          assert a'[..k - 1] == a[1..k] == b[1..k] == b'[..k - 1];
          assert a'[k - 1] < b'[k - 1];
          LexLeMeansFirstDifference(a', b');
        }
      }
    }
  }

  lemma {:induction false} LexLeReflexive(a: string)
    ensures LexLe(a, a)
    decreases |a|
  {
    if |a| > 0 {
      LexLeReflexive(a[1..]);
    }
  }

  lemma {:induction false} LexLeTotal(a: string, b: string)
    ensures LexLe(a, b) || LexLe(b, a)
    decreases |a|
  {
    if |a| > 0 && |b| > 0 && a[0] == b[0] {
      LexLeTotal(a[1..], b[1..]);
    }
  }

  lemma {:induction false} LexLeAntisymmetric(a: string, b: string)
    requires LexLe(a, b) && LexLe(b, a)
    ensures a == b
    decreases |a|
  {
    if |a| > 0 {
      LexLeAntisymmetric(a[1..], b[1..]);
      assert a == [a[0]] + a[1..];
      assert b == [b[0]] + b[1..];
    }
  }

  lemma {:induction false} LexLeTransitive(a: string, b: string, c: string)
    requires LexLe(a, b) && LexLe(b, c)
    ensures LexLe(a, c)
    decreases |a|
  {
    if |a| > 0 && a[0] == b[0] && b[0] == c[0] {
      LexLeTransitive(a[1..], b[1..], c[1..]);
    }
  }
}

=== FILE: dir_scan.dfy ===
/**
 * Building the navigation list of a folder (`dirMakeImageList`, first half):
 * one glob per supported extension, concatenated in extension order, every
 * `\` turned into `/`, then stably sorted by the lower-cased path.
 *
 * The folder's contents are an input: `listing` is the sequence of paths the
 * file system enumerates for the folder's globs, in enumeration order, and a
 * glob for `*.ext` keeps the entries ending in `.ext`.  A folder name holding
 * `[`, `*` or `?` is itself read as a pattern, so its `listing` may be another
 * folder's entries, or none.
 */
module DirScan {
  import opened Wrappers
  import opened StableSort

  /** The extensions globbed for, in the order their results are concatenated. */
  const FileTypes: seq<string> := ["png", "jpg", "jpeg", "bmp", "gif"]

  predicate EndsWith(p: string, suffix: string)
  {
    |suffix| <= |p| && p[|p| - |suffix|..] == suffix
  }

  /** The entry names a supported image: it ends in one of the globbed extensions. */
  predicate IsImageFile(p: string)
  {
    exists e :: e in FileTypes && EndsWith(p, "." + e)
  }

  /** One glob, `*.ext`: the entries ending in `.ext`, in enumeration order. */
  function Glob(listing: seq<string>, ext: string): (r: seq<string>)
    ensures forall p :: p in r <==> p in listing && EndsWith(p, "." + ext)
  {
    if |listing| == 0 then []
    else
      assert listing == [listing[0]] + listing[1..];
      (if EndsWith(listing[0], "." + ext) then [listing[0]] else []) + Glob(listing[1..], ext)
  }

  /** The results of one glob per extension of `exts`, concatenated in order. */
  function GlobAll(listing: seq<string>, exts: seq<string>): (r: seq<string>)
    ensures forall p :: p in r <==> p in listing && exists e :: e in exts && EndsWith(p, "." + e)
  {
    if |exts| == 0 then []
    else
      assert exts == [exts[0]] + exts[1..];
      Glob(listing, exts[0]) + GlobAll(listing, exts[1..])
  }

  /** A glob matching none of the entries finds nothing. */
  lemma {:induction false} GlobNone(listing: seq<string>, ext: string)
    requires forall p :: p in listing ==> !EndsWith(p, "." + ext)
    ensures Glob(listing, ext) == []
    decreases |listing|
  {
    if |listing| > 0 {
      assert listing[0] in listing;
      GlobNone(listing[1..], ext);
    }
  }

  /** Strings that end alike agree on their next-to-last characters. */
  lemma EndsWithNextToLast(p: string, suffix: string)
    requires |suffix| >= 2
    ensures EndsWith(p, suffix) ==> |p| >= 2 && p[|p| - 2] == suffix[|suffix| - 2]
  {
    if EndsWith(p, suffix) {
      assert p[|p| - |suffix|..][|suffix| - 2] == suffix[|suffix| - 2];
    }
  }

  /** `path.replace("\\", "/")`. */
  function Normalize(p: string): (r: string)
    ensures |r| == |p|
    ensures '\\' !in r
    ensures forall i :: 0 <= i < |p| && p[i] != '\\' ==> r[i] == p[i]
    ensures forall i :: 0 <= i < |p| && p[i] == '\\' ==> r[i] == '/'
  {
    seq(|p|, i requires 0 <= i < |p| => if p[i] == '\\' then '/' else p[i])
  }

  function NormalizeAll(ps: seq<string>): (r: seq<string>)
    ensures |r| == |ps|
  {
    seq(|ps|, i requires 0 <= i < |ps| => Normalize(ps[i]))
  }

  /** The concatenated, normalised glob results, before sorting. */
  function Collected(listing: seq<string>): seq<string>
  {
    NormalizeAll(GlobAll(listing, FileTypes))
  }

  /** `dirImageList_` as `dirMakeImageList` builds it for a folder. */
  function ImageList(listing: seq<string>): (r: seq<string>)
    ensures multiset(r) == multiset(Collected(listing))
    ensures forall p :: p in r <==> exists q :: q in listing && IsImageFile(q) && Normalize(q) == p
    ensures forall p :: p in r ==> |p| > 0
  {
    var c := Collected(listing);
    var g := GlobAll(listing, FileTypes);
    var r := Sort(c);
    assert forall p :: p in r <==> p in c by {
      forall p ensures p in r <==> p in c {
        assert p in r <==> p in multiset(r);
        assert p in c <==> p in multiset(c);
      }
    }
    assert forall p :: p in c <==> exists q :: q in g && Normalize(q) == p by {
      forall p ensures p in c <==> exists q :: q in g && Normalize(q) == p {
        if p in c {
          var i :| 0 <= i < |c| && c[i] == p;
          assert g[i] in g;
        }
        if q :| q in g && Normalize(q) == p {
          var i :| 0 <= i < |g| && g[i] == q;
          assert c[i] == p;
        }
      }
    }
    r
  }

  /** The list is sorted by lower-cased path. */
  lemma ImageListSorted(listing: seq<string>)
    ensures Sorted(ImageList(listing))
  {
    SortSorted(Collected(listing));
  }

  /** Paths with equal lower-cased forms keep their glob order. */
  lemma ImageListStable(listing: seq<string>, k: string)
    ensures WithKey(ImageList(listing), k) == WithKey(Collected(listing), k)
  {
    SortStable(Collected(listing), k);
  }

  /** A rescan finds nothing exactly when no entry of the folder is an image. */
  lemma ImageListEmpty(listing: seq<string>)
    ensures ImageList(listing) == [] <==> forall q :: q in listing ==> !IsImageFile(q)
  {
    var r := ImageList(listing);
    if q :| q in listing && IsImageFile(q) {
      assert Normalize(q) in r;
    }
    if |r| > 0 {
      assert r[0] in r;
    }
  }

  /** `ImageList` is the stable sort of the globbed paths: it is the only
      arrangement of them that is sorted by lower-cased path and keeps paths
      with equal lower-cased forms in glob order. */
  lemma ImageListCharacterised(listing: seq<string>, r: seq<string>)
    requires Sorted(r)
    requires forall k :: WithKey(r, k) == WithKey(Collected(listing), k)
    ensures r == ImageList(listing)
  {
    SortIsTheStableSort(Collected(listing), r);
  }

  /** The folder's image files, in enumeration order. */
  function ImageFiles(listing: seq<string>): seq<string>
  {
    if |listing| == 0 then []
    else (if IsImageFile(listing[0]) then [listing[0]] else []) + ImageFiles(listing[1..])
  }

  lemma GlobOne(x: string, ext: string)
    ensures Glob([x], ext) == if EndsWith(x, "." + ext) then [x] else []
  {
    assert [x][1..] == [];
  }

  lemma IsImageFileCases(x: string)
    ensures IsImageFile(x) <==>
      EndsWith(x, ".png") || EndsWith(x, ".jpg") || EndsWith(x, ".jpeg")
      || EndsWith(x, ".bmp") || EndsWith(x, ".gif")
  {
    assert "png" in FileTypes && "jpg" in FileTypes && "jpeg" in FileTypes;
    assert "bmp" in FileTypes && "gif" in FileTypes;
  }

  /** The next-to-last letters of the extensions tell them apart. */
  lemma NextToLastDistinct(a: string, b: string)
    requires a in FileTypes && b in FileTypes && a != b
    ensures |a| >= 2 && |b| >= 2 && a[|a| - 2] != b[|b| - 2]
  {
  }

  /** A path ending in one globbed extension ends in no other. */
  lemma NotTwoExtensions(x: string, a: string, b: string)
    requires a in FileTypes && b in FileTypes && a != b && EndsWith(x, "." + a)
    ensures !EndsWith(x, "." + b)
  {
    NextToLastDistinct(a, b);
    EndsWithNextToLast(x, "." + a);
    EndsWithNextToLast(x, "." + b);
    assert ("." + a)[|"." + a| - 2] == a[|a| - 2];
    assert ("." + b)[|"." + b| - 2] == b[|b| - 2];
  }

  /** An image file with extension `ext` is found by the `ext` glob only. */
  lemma GlobOfImage(x: string, ext: string, e: string)
    requires ext in FileTypes && e in FileTypes && EndsWith(x, "." + ext)
    ensures Glob([x], e) == if e == ext then [x] else []
  {
    GlobOne(x, e);
    if e != ext {
      NotTwoExtensions(x, ext, e);
    }
  }

  lemma GlobAllUnrolled(l: seq<string>)
    ensures GlobAll(l, FileTypes)
      == Glob(l, "png") + Glob(l, "jpg") + Glob(l, "jpeg") + Glob(l, "bmp") + Glob(l, "gif")
  {
    assert GlobAll(l, FileTypes[5..]) == [];
    assert GlobAll(l, FileTypes[4..]) == Glob(l, "gif");
    assert GlobAll(l, FileTypes[3..]) == Glob(l, "bmp") + Glob(l, "gif");
    assert GlobAll(l, FileTypes[2..]) == Glob(l, "jpeg") + (Glob(l, "bmp") + Glob(l, "gif"));
  }

  /** 1 when `x` ends in `.e`, else 0. */
  function Hit(x: string, e: string): nat
  {
    if EndsWith(x, "." + e) then 1 else 0
  }

  /** How many of `exts` the path `x` ends in (with the dot). */
  function MatchCount(x: string, exts: seq<string>): nat
  {
    if |exts| == 0 then 0 else Hit(x, exts[0]) + MatchCount(x, exts[1..])
  }

  /** Globbing one entry with several patterns yields it once per pattern it
      matches. */
  lemma {:induction false} GlobAllRepeats(x: string, exts: seq<string>)
    ensures GlobAll([x], exts) == seq(MatchCount(x, exts), _ => x)
    decreases |exts|
  {
    if |exts| > 0 {
      GlobAllRepeats(x, exts[1..]);
      GlobOne(x, exts[0]);
    }
  }

  lemma MatchCountUnrolled(x: string)
    ensures MatchCount(x, FileTypes) == Hit(x, "png") + Hit(x, "jpg") + Hit(x, "jpeg") + Hit(x, "bmp") + Hit(x, "gif")
  {
    assert MatchCount(x, FileTypes[5..]) == 0;
    assert MatchCount(x, FileTypes[4..]) == Hit(x, "gif");
    assert MatchCount(x, FileTypes[3..]) == Hit(x, "bmp") + Hit(x, "gif");
    assert MatchCount(x, FileTypes[2..]) == Hit(x, "jpeg") + Hit(x, "bmp") + Hit(x, "gif");
  }

  /** Sums five hits of which the one for `e` is 1 and the others 0. */
  lemma OneHit(e: string, png: nat, jpg: nat, jpeg: nat, bmp: nat, gif: nat)
    requires e in FileTypes
    requires png == (if e == "png" then 1 else 0) && jpg == (if e == "jpg" then 1 else 0)
    requires jpeg == (if e == "jpeg" then 1 else 0) && bmp == (if e == "bmp" then 1 else 0)
    requires gif == (if e == "gif" then 1 else 0)
    ensures png + jpg + jpeg + bmp + gif == 1
  {
  }

  lemma HitOfImage(x: string, e: string, f: string)
    requires e in FileTypes && f in FileTypes && EndsWith(x, "." + e)
    ensures Hit(x, f) == if f == e then 1 else 0
  {
    if f != e {
      NotTwoExtensions(x, e, f);
    }
  }

  /** An image file matches exactly one of the viewer's patterns. */
  lemma MatchCountOfImage(x: string, e: string)
    requires e in FileTypes && EndsWith(x, "." + e)
    ensures MatchCount(x, FileTypes) == 1
  {
    MatchCountUnrolled(x);
    var png, jpg, jpeg, bmp, gif := Hit(x, "png"), Hit(x, "jpg"), Hit(x, "jpeg"), Hit(x, "bmp"), Hit(x, "gif");
    assert png == (if e == "png" then 1 else 0) by { HitOfImage(x, e, "png"); }
    assert jpg == (if e == "jpg" then 1 else 0) by { HitOfImage(x, e, "jpg"); }
    assert jpeg == (if e == "jpeg" then 1 else 0) by { HitOfImage(x, e, "jpeg"); }
    assert bmp == (if e == "bmp" then 1 else 0) by { HitOfImage(x, e, "bmp"); }
    assert gif == (if e == "gif" then 1 else 0) by { HitOfImage(x, e, "gif"); }
    OneHit(e, png, jpg, jpeg, bmp, gif);
  }

  /** A path matches one of the viewer's patterns if it is an image file and
      none otherwise. */
  lemma MatchCountFileTypes(x: string)
    ensures MatchCount(x, FileTypes) == if IsImageFile(x) then 1 else 0
  {
    if IsImageFile(x) {
      var e :| e in FileTypes && EndsWith(x, "." + e);
      MatchCountOfImage(x, e);
    } else {
      MatchCountUnrolled(x);
      IsImageFileCases(x);
    }
  }

  /** A single entry is globbed once if it is an image file and not at all
      otherwise. */
  lemma GlobAllOne(x: string)
    ensures multiset(GlobAll([x], FileTypes)) == if IsImageFile(x) then multiset{x} else multiset{}
  {
    GlobAllRepeats(x, FileTypes);
    MatchCountFileTypes(x);
    if IsImageFile(x) {
      assert GlobAll([x], FileTypes) == [x];
    } else {
      assert GlobAll([x], FileTypes) == [];
    }
  }

  lemma {:induction false} GlobAllCons(x: string, listing: seq<string>, exts: seq<string>)
    ensures multiset(GlobAll([x] + listing, exts)) == multiset(GlobAll([x], exts)) + multiset(GlobAll(listing, exts))
    decreases |exts|
  {
    if |exts| > 0 {
      GlobAllCons(x, listing, exts[1..]);
      var l := [x] + listing;
      assert l[0] == x && l[1..] == listing;
      GlobOne(x, exts[0]);
    }
  }

  lemma {:induction false} GlobAllOfNothing(exts: seq<string>)
    ensures GlobAll([], exts) == []
    decreases |exts|
  {
    if |exts| > 0 {
      GlobAllOfNothing(exts[1..]);
    }
  }

  /** The concatenated globs hold every image file of the folder exactly once
      and nothing else. */
  lemma {:induction false} GlobsCountEachImageOnce(listing: seq<string>)
    ensures multiset(GlobAll(listing, FileTypes)) == multiset(ImageFiles(listing))
    decreases |listing|
  {
    if |listing| == 0 {
      GlobAllOfNothing(FileTypes);
    } else {
      var x := listing[0];
      assert listing == [x] + listing[1..];
      GlobAllCons(x, listing[1..], FileTypes);
      GlobAllOne(x);
      GlobsCountEachImageOnce(listing[1..]);
    }
  }

  /** `list.index(x)`: the first position of `x`, or `None` where Python raises
      `ValueError`. */
  function IndexOf(s: seq<string>, x: string): (r: Option<nat>)
    ensures r.None? <==> x !in s
    ensures r.Some? ==> r.value < |s| && s[r.value] == x && x !in s[..r.value]
  {
    if |s| == 0 then None
    else if s[0] == x then Some(0)
    else
      match IndexOf(s[1..], x)
      case None => None
      case Some(i) =>
        assert s[..i + 1] == [s[0]] + s[1..][..i];
        Some(i + 1)
  }
}

=== FILE: findings.dfy ===
/**
 * How `openImage` as written (`OpenImageAsWritten`, which the event loop
 * runs) differs from the corrected `OpenImage`: the folder computed by
 * deleting every occurrence of the file name, and the missing redraw when the
 * file's folder is already known.
 */
module Findings {
  import opened Wrappers
  import opened Paths
  import opened DirScan
  import opened Viewer

  /** The corrected open, for a file of the folder already scanned: the index
      moves to the file's first position and the file is redrawn; a file
      missing from the list raises ValueError. */
  lemma CorrectedOpenSameFolder(v: ViewerState, chosen: string, listing: seq<string>)
    requires chosen != "" && SameFolder(v, ImageFolder(chosen))
    ensures var r := OpenImage(v, chosen, listing);
      && r.after.dirImageList == v.dirImageList && r.after.navEnabled == v.navEnabled
      && (chosen in v.dirImageList ==>
            r.Done? && ShowsSelection(r.after) && chosen !in v.dirImageList[..r.after.imageNumber])
      && (chosen !in v.dirImageList ==> r.Raised? && r.fault == NotInList)
  {
  }

  /** Where the two folder computations agree, the only difference is the
      redraw after re-opening a file of the known folder. */
  lemma AsWrittenOnlyMissesRedraw(v: ViewerState, chosen: string, listing: seq<string>)
    requires chosen != "" && ImageFolderByReplace(chosen) == ImageFolder(chosen)
    ensures !SameFolder(v, ImageFolder(chosen)) ==>
      OpenImageAsWritten(v, chosen, listing) == OpenImage(v, chosen, listing)
    ensures SameFolder(v, ImageFolder(chosen)) && OpenImageAsWritten(v, chosen, listing).Done? ==>
      OpenImage(v, chosen, listing) == Done(Render(OpenImageAsWritten(v, chosen, listing).after))
    ensures OpenImageAsWritten(v, chosen, listing).Raised? ==>
      OpenImage(v, chosen, listing) == OpenImageAsWritten(v, chosen, listing)
  {
  }

  lemma SiblingFolderByReplace()
    ensures ImageFolderByReplace("/p/b.png") == "/p/"
    ensures ImageFolder("/p/b.png") == "/p/"
  {
    var p := "/p/b.png";
    ImageFolderOfChild("/p", "b.png");
    forall i | 0 <= i < |p| - |Basename(p)|
      ensures !OccursAt(p, Basename(p), i)
    {
      assert p[i..i + 5][0] == p[i] != 'b';
    }
    ByReplaceAgreesWhenNameIsUnique(p);
  }

  /** The open as written, from `/p/a.png` shown to `/p/b.png` chosen. */
  lemma StaleDisplayAsWritten(v: ViewerState, chosen: string, listing: seq<string>)
    requires v == ViewerState("/p/", ["/p/a.png", "/p/b.png"], 0, "/p/a.png", true,
                              Some("/p/a.png"), None, Shown(Full, "/p/a.png"))
    requires chosen == "/p/b.png"
    ensures var w := OpenImageAsWritten(v, chosen, listing);
      && w.Done? && w.after.imgFilePath == "/p/b.png" && w.after.imageNumber == 1
      && w.after.display == Shown(Full, "/p/a.png")
  {
    assert ImageFolderByReplace(chosen) == "/p/" by { SiblingFolderByReplace(); }
    var u := v.(imgFilePath := chosen);
    assert IndexOf(u.dirImageList, chosen) == Some(1);
    assert OpenImageIn(u, "/p/", listing) == Done(u.(imageNumber := 1));
  }

  /** Showing `/p/a.png` of folder `/p/`, opening `/p/b.png` as written moves
      the index and the current path to `b.png` but leaves `a.png` on screen,
      where the corrected open shows `b.png`. */
  lemma SameFolderOpenLeavesStaleDisplay(v: ViewerState, chosen: string, listing: seq<string>)
    requires v == ViewerState("/p/", ["/p/a.png", "/p/b.png"], 0, "/p/a.png", true,
                              Some("/p/a.png"), None, Shown(Full, "/p/a.png"))
    requires chosen == "/p/b.png"
    ensures ShowsSelection(v)
    ensures var w := OpenImageAsWritten(v, chosen, listing);
      && w.Done? && w.after.imgFilePath == "/p/b.png" && w.after.imageNumber == 1
      && w.after.display == Shown(Full, "/p/a.png") && !ShowsSelection(w.after)
    ensures var r := OpenImage(v, chosen, listing);
      r.Done? && ShowsSelection(r.after) && r.after.display == Shown(Full, "/p/b.png")
  {
    StaleDisplayAsWritten(v, chosen, listing);
    var w := OpenImageAsWritten(v, chosen, listing).after;
    assert w.imageNumber == 1 && w.imgFilePath == "/p/b.png" && w.display == Shown(Full, "/p/a.png");
    assert !ShowsSelection(w);
    assert ImageFolder(chosen) == "/p/" by { SiblingFolderByReplace(); }
    assert chosen in v.dirImageList by { assert v.dirImageList[1] == chosen; }
    CorrectedOpenSameFolder(v, chosen, listing);
  }
}

=== FILE: paths.dfy ===
/**
 * Splitting an opened image's path into its folder and file name.
 *
 * `openImage` computes the folder as
 * `imgFilePath.replace(os.path.basename(imgFilePath), "")`: it deletes EVERY
 * occurrence of the file name, not only the trailing one.  `ImageFolderByReplace`
 * models that expression as written; `ImageFolder` is the evidently intended
 * split (everything up to and including the last '/'), which the corrected open
 * uses.  Both keep the trailing '/'.
 */
module Paths {

  /** `p.rfind('/')`: the position of the last '/', or -1 when there is none. */
  function LastSlash(p: string): (r: int)
    ensures -1 <= r < |p|
    ensures r >= 0 ==> p[r] == '/'
    ensures forall i :: r < i < |p| ==> p[i] != '/'
    decreases |p|
  {
    if |p| == 0 then -1
    else if p[|p| - 1] == '/' then |p| - 1
    else LastSlash(p[..|p| - 1])
  }

  /** `os.path.basename` (POSIX): the text after the last '/'. */
  function Basename(p: string): string
  {
    p[LastSlash(p) + 1..]
  }

  /** The folder of an opened image, with its trailing '/': the part of `p`
      in front of its file name. */
  function ImageFolder(p: string): (r: string)
    ensures r + Basename(p) == p
    ensures r == "" || r[|r| - 1] == '/'
    ensures '/' !in Basename(p)
  {
    p[..LastSlash(p) + 1]
  }

  lemma {:induction false} LastSlashOfChild(d: string, name: string)
    requires '/' !in name
    ensures LastSlash(d + "/" + name) == |d|
    decreases |name|
  {
    var p := d + "/" + name;
    if |name| > 0 {
      var name' := name[..|name| - 1];
      assert p[|p| - 1] == name[|name| - 1];
      assert p[..|p| - 1] == d + "/" + name';
      LastSlashOfChild(d, name');
    }
  }

  /** The folder of a file `name` inside `d` is `d` with a '/' appended. */
  lemma ImageFolderOfChild(d: string, name: string)
    requires '/' !in name
    ensures ImageFolder(d + "/" + name) == d + "/"
    ensures Basename(d + "/" + name) == name
  {
    LastSlashOfChild(d, name);
  }

  /** `pat` occurs in `s` starting at position `i`. */
  predicate OccursAt(s: string, pat: string, i: int)
  {
    0 <= i && i + |pat| <= |s| && s[i..i + |pat|] == pat
  }

  /** `s.replace(pat, "")`: deletes the non-overlapping occurrences of `pat`
      found scanning left to right.  Replacing the empty string changes nothing. */
  function DeleteAll(s: string, pat: string): (r: string)
    ensures |r| <= |s|
    decreases |s|
  {
    if |pat| == 0 || |s| < |pat| then s
    else if s[..|pat|] == pat then DeleteAll(s[|pat|..], pat)
    else [s[0]] + DeleteAll(s[1..], pat)
  }

  /** The folder as `openImage` computes it: the path with every occurrence of
      its file name deleted.  The trailing name always goes, and so does every
      copy of it in front of the last '/', which is kept. */
  function ImageFolderByReplace(p: string): (r: string)
    ensures LastSlash(p) < 0 ==> r == ""
    ensures LastSlash(p) >= 0 ==> r == DeleteAll(p[..LastSlash(p)], Basename(p)) + "/"
  {
    DeleteNameSplitsAtLastSlash(p);
    DeleteAll(p, Basename(p))
  }

  lemma DeleteNameSplitsAtLastSlash(p: string)
    ensures LastSlash(p) < 0 ==> DeleteAll(p, Basename(p)) == ""
    ensures LastSlash(p) >= 0 ==>
      DeleteAll(p, Basename(p)) == DeleteAll(p[..LastSlash(p)], Basename(p)) + "/"
  {
    var k := LastSlash(p);
    if k < 0 {
      DeleteItself(p);
    } else {
      var b := Basename(p);
      assert p == p[..k] + "/" + b;
      assert forall i :: 0 <= i < |b| ==> b[i] == p[k + 1 + i];
      DeleteTrailingName(p[..k], b);
    }
  }

  /** Deleting a string from itself leaves nothing. */
  lemma DeleteItself(s: string)
    ensures DeleteAll(s, s) == ""
  {
    if |s| > 0 {
      assert DeleteAll(s[|s|..], s) == "";
    }
  }

  /** A file name after the last '/' is deleted, and so is every copy of it in
      front of that '/'. */
  lemma DeleteTrailingName(d: string, name: string)
    requires '/' !in name
    ensures DeleteAll(d + "/" + name, name) == DeleteAll(d, name) + "/"
  {
    if |name| > 0 {
      DeleteAllAroundSlash(d, name, name);
      DeleteItself(name);
    }
  }

  /** When `pat` occurs in `s` only as its suffix, deleting every occurrence
      just cuts that suffix off. */
  lemma {:induction false} DeleteAllSuffixOnly(s: string, pat: string)
    requires 0 < |pat| <= |s|
    requires OccursAt(s, pat, |s| - |pat|)
    requires forall i :: 0 <= i < |s| - |pat| ==> !OccursAt(s, pat, i)
    ensures DeleteAll(s, pat) == s[..|s| - |pat|]
    decreases |s|
  {
    if |s| == |pat| {
      assert s[..|pat|] == pat;
      assert DeleteAll(s[|pat|..], pat) == [];
    } else {
      assert !OccursAt(s, pat, 0);
      var t := s[1..];
      forall i | 0 <= i < |t| - |pat|
        ensures !OccursAt(t, pat, i)
      {
        assert !OccursAt(s, pat, i + 1);
        assert t[i..i + |pat|] == s[i + 1..i + 1 + |pat|];
      }
      assert t[|t| - |pat|..] == s[|s| - |pat|..];
      DeleteAllSuffixOnly(t, pat);
      assert [s[0]] + t[..|t| - |pat|] == s[..|s| - |pat|];
    }
  }

  /** The replace-based folder is the intended one when the file name does not
      also occur earlier in the path. */
  lemma ByReplaceAgreesWhenNameIsUnique(p: string)
    requires forall i :: 0 <= i < |p| - |Basename(p)| ==> !OccursAt(p, Basename(p), i)
    ensures ImageFolderByReplace(p) == ImageFolder(p)
  {
    var b := Basename(p);
    if |b| > 0 {
      assert p[|p| - |b|..] == b;
      DeleteAllSuffixOnly(p, b);
    }
  }

  /** A pattern without '/' never spans a '/': deleting its occurrences from
      `d + "/" + t` deletes them from `d` and from `t` separately. */
  lemma {:induction false} DeleteAllAroundSlash(d: string, t: string, pat: string)
    requires 0 < |pat| && '/' !in pat
    ensures DeleteAll(d + "/" + t, pat) == DeleteAll(d, pat) + "/" + DeleteAll(t, pat)
    decreases |d|, 1
  {
    var s := d + "/" + t;
    if |d| == 0 {
      SlashFirstIsKept(t, pat);
      assert s == "/" + t;
    } else if |pat| <= |s| && s[..|pat|] == pat {
      AroundSlashAfterMatch(d, t, pat);
    } else {
      AroundSlashAfterKept(d, t, pat);
    }
  }

  lemma {:induction false} AroundSlashAfterMatch(d: string, t: string, pat: string)
    requires 0 < |pat| && '/' !in pat
    requires |pat| <= |d + "/" + t| && (d + "/" + t)[..|pat|] == pat
    ensures DeleteAll(d + "/" + t, pat) == DeleteAll(d, pat) + "/" + DeleteAll(t, pat)
    decreases |d|, 0
  {
    MatchLeftOfSlash(d, t, pat);
    assert DeleteAll(d + "/" + t, pat) == DeleteAll(d[|pat|..] + "/" + t, pat);
    assert DeleteAll(d, pat) == DeleteAll(d[|pat|..], pat);
    DeleteAllAroundSlash(d[|pat|..], t, pat);
  }

  lemma {:induction false} AroundSlashAfterKept(d: string, t: string, pat: string)
    requires 0 < |pat| && '/' !in pat && 0 < |d|
    requires !(|pat| <= |d + "/" + t| && (d + "/" + t)[..|pat|] == pat)
    ensures DeleteAll(d + "/" + t, pat) == DeleteAll(d, pat) + "/" + DeleteAll(t, pat)
    decreases |d|, 0
  {
    NoMatchKeepsFirst(d, t, pat);
    DeleteAllAroundSlash(d[1..], t, pat);
    var a, b := DeleteAll(d[1..], pat), DeleteAll(t, pat);
    assert [d[0]] + (a + "/" + b) == ([d[0]] + a) + "/" + b;
  }

  /** Without an occurrence at the front, the first character of `d` is kept,
      both in `d + "/" + t` and in `d` alone. */
  lemma NoMatchKeepsFirst(d: string, t: string, pat: string)
    requires 0 < |pat| && 0 < |d|
    requires !(|pat| <= |d + "/" + t| && (d + "/" + t)[..|pat|] == pat)
    ensures DeleteAll(d + "/" + t, pat) == [d[0]] + DeleteAll(d[1..] + "/" + t, pat)
    ensures DeleteAll(d, pat) == [d[0]] + DeleteAll(d[1..], pat)
  {
    var s := d + "/" + t;
    assert s[1..] == d[1..] + "/" + t;
    if |d| >= |pat| {
      assert d[..|pat|] == s[..|pat|];
    }
  }

  /** An occurrence of a pattern without '/' at the front of `d + "/" + t`
      lies inside `d`. */
  lemma MatchLeftOfSlash(d: string, t: string, pat: string)
    requires '/' !in pat
    requires |pat| <= |d + "/" + t| && (d + "/" + t)[..|pat|] == pat
    ensures |pat| <= |d| && d[..|pat|] == pat
    ensures (d + "/" + t)[|pat|..] == d[|pat|..] + "/" + t
  {
    var s := d + "/" + t;
    assert s[|d|] == '/';
    assert forall j :: 0 <= j < |pat| ==> pat[j] == s[j];
  }

  /** A '/' in front is never part of a deleted occurrence. */
  lemma SlashFirstIsKept(t: string, pat: string)
    requires 0 < |pat| && '/' !in pat
    ensures DeleteAll("/" + t, pat) == "/" + DeleteAll(t, pat)
  {
    var s := "/" + t;
    assert s[1..] == t;
    if |s| >= |pat| {
      assert s[..|pat|][0] == '/';
    }
  }

  /** The replace-based folder of a file `name` inside `d`: `d` with the
      occurrences of `name` deleted, followed by '/'. */
  lemma ByReplaceOfChild(d: string, name: string)
    requires '/' !in name
    ensures ImageFolderByReplace(d + "/" + name) == DeleteAll(d, name) + "/"
  {
    ImageFolderOfChild(d, name);
    if |name| > 0 {
      DeleteAllAroundSlash(d, name, name);
      assert DeleteAll(name[|name|..], name) == "";
    }
  }

  /** Deleting a pattern without '/' and appending '/' never gives back the
      string itself. */
  lemma {:induction false} DeleteAllThenSlashDiffers(d: string, pat: string)
    requires '/' !in pat
    ensures DeleteAll(d, pat) + "/" != d
    decreases |d|
  {
    var r := DeleteAll(d, pat);
    if |pat| > 0 && r + "/" == d {
      var d' := d[..|d| - 1];
      assert d == d' + "/" + "";
      DeleteAllAroundSlash(d', "", pat);
      assert r == DeleteAll(d', pat) + "/";
      assert d' == r[..|r|];
      DeleteAllThenSlashDiffers(d', pat);
    }
  }

  /** The replace-based folder of a file inside `d` is never `d` itself. */
  lemma ByReplaceOfChildIsNotParent(d: string, name: string)
    requires '/' !in name
    ensures ImageFolderByReplace(d + "/" + name) != d
  {
    ByReplaceOfChild(d, name);
    DeleteAllThenSlashDiffers(d, name);
  }

  /** A path whose folder name contains the file name: the replace-based
      folder loses part of the folder name. */
  lemma ByReplaceMangledFolder()
    ensures Basename("/ab.png/b.png") == "b.png"
    ensures ImageFolder("/ab.png/b.png") == "/ab.png/"
    ensures ImageFolderByReplace("/ab.png/b.png") == "/a/"
  {
    var p := "/ab.png/b.png";
    assert LastSlash(p[..8]) == 7;
    assert p[..9][..8] == p[..8];
    assert p[..10][..9] == p[..9];
    assert p[..11][..10] == p[..10];
    assert p[..12][..11] == p[..11];
    assert p[..12] == p[..|p| - 1];
    assert LastSlash(p) == 7;
    assert Basename(p) == "b.png";
    var b := "b.png";
    assert p[..5][0] != b[0];
    assert p[1..][..5][0] != b[0];
    assert p[2..][..5] == b;
    assert p[7..][..5][0] != b[0];
    assert p[8..][..5] == b;
    assert DeleteAll(p[8..][5..], b) == "";
    assert DeleteAll(p[7..], b) == "/";
    assert DeleteAll(p[2..][5..], b) == "/";
    assert DeleteAll(p[1..], b) == "a/";
  }
}

=== FILE: scenario.dfy ===
/**
 * A worked run: a folder holding `B.png`, `a.jpg` and `C.gif` is opened and
 * the forward button pressed three times.
 */
module Scenario {
  import opened Wrappers
  import opened StableSort
  import opened DirScan
  import opened Viewer
  import opened ViewerProps

  lemma GlobOfThree(a: string, b: string, c: string, e: string)
    ensures Glob([a, b, c], e) == Glob([a], e) + Glob([b], e) + Glob([c], e)
  {
    assert [a, b, c][1..] == [b, c];
    assert [b, c][1..] == [c];
    assert [a][1..] == [] && [b][1..] == [] && [c][1..] == [];
  }

  lemma GlobOfThreeImages(a: string, b: string, c: string, ea: string, eb: string, ec: string, e: string)
    requires ea in FileTypes && eb in FileTypes && ec in FileTypes && e in FileTypes
    requires EndsWith(a, "." + ea) && EndsWith(b, "." + eb) && EndsWith(c, "." + ec)
    ensures Glob([a, b, c], e)
      == (if e == ea then [a] else []) + (if e == eb then [b] else []) + (if e == ec then [c] else [])
  {
    GlobOfThree(a, b, c, e);
    GlobOfImage(a, ea, e);
    GlobOfImage(b, eb, e);
    GlobOfImage(c, ec, e);
  }

  lemma GlobOfPngJpgGif(a: string, b: string, c: string, e: string, r: seq<string>)
    requires EndsWith(a, ".png") && EndsWith(b, ".jpg") && EndsWith(c, ".gif")
    requires e in FileTypes
    requires r == (if e == "png" then [a] else []) + (if e == "jpg" then [b] else []) + (if e == "gif" then [c] else [])
    ensures Glob([a, b, c], e) == r
  {
    GlobOfThreeImages(a, b, c, "png", "jpg", "gif", e);
  }

  lemma GlobAllOfGlobs(l: seq<string>, png: seq<string>, jpg: seq<string>, jpeg: seq<string>, bmp: seq<string>, gif: seq<string>)
    requires Glob(l, "png") == png && Glob(l, "jpg") == jpg && Glob(l, "jpeg") == jpeg
    requires Glob(l, "bmp") == bmp && Glob(l, "gif") == gif
    ensures GlobAll(l, FileTypes) == png + jpg + jpeg + bmp + gif
  {
    GlobAllUnrolled(l);
  }

  lemma ConcatOfThree(l: seq<string>, a: string, b: string, c: string)
    requires l == [a, b, c]
    ensures [a] + [b] + [] + [] + [c] == l
  {
  }

  lemma GlobsOfPngJpgGif(a: string, b: string, c: string)
    requires EndsWith(a, ".png") && EndsWith(b, ".jpg") && EndsWith(c, ".gif")
    ensures Glob([a, b, c], "png") == [a] && Glob([a, b, c], "jpg") == [b]
    ensures Glob([a, b, c], "jpeg") == [] && Glob([a, b, c], "bmp") == [] && Glob([a, b, c], "gif") == [c]
  {
    GlobOfPngJpgGif(a, b, c, "png", [a]);
    GlobOfPngJpgGif(a, b, c, "jpg", [b]);
    GlobOfPngJpgGif(a, b, c, "jpeg", []);
    GlobOfPngJpgGif(a, b, c, "bmp", []);
    GlobOfPngJpgGif(a, b, c, "gif", [c]);
  }

  /** One `.png`, one `.jpg` and one `.gif`, enumerated in that order, come
      out of the globs in the same order. */
  lemma GlobAllPngJpgGif(l: seq<string>, a: string, b: string, c: string)
    requires l == [a, b, c]
    requires EndsWith(a, ".png") && EndsWith(b, ".jpg") && EndsWith(c, ".gif")
    ensures GlobAll(l, FileTypes) == l
  {
    GlobsOfPngJpgGif(a, b, c);
    GlobAllOfGlobs(l, [a], [b], [], [], [c]);
    ConcatOfThree(l, a, b, c);
  }

  lemma NoBackslashes(p: string)
    requires '\\' !in p
    ensures Normalize(p) == p
  {
  }

  /** The folder's list is `[a.jpg, B.png, C.gif]`: case-insensitive order. */
  lemma ScenarioImageList(listing: seq<string>)
    requires listing == ["/d/B.png", "/d/a.jpg", "/d/C.gif"]
    ensures ImageList(listing) == ["/d/a.jpg", "/d/B.png", "/d/C.gif"]
  {
    assert EndsWith("/d/B.png", ".png") && EndsWith("/d/a.jpg", ".jpg") && EndsWith("/d/C.gif", ".gif");
    GlobAllPngJpgGif(listing, "/d/B.png", "/d/a.jpg", "/d/C.gif");
    NoBackslashes("/d/B.png");
    NoBackslashes("/d/a.jpg");
    NoBackslashes("/d/C.gif");
    assert Collected(listing) == listing;
    CaseInsensitiveOrderExample();
  }

  /** Opening the folder selects `a.jpg`; forward twice shows `C.gif`; one more
      forward wraps round to `a.jpg`. */
  lemma OpenDirScenario(listing: seq<string>)
    requires listing == ["/d/B.png", "/d/a.jpg", "/d/C.gif"]
    ensures var r := OpenDir(Start, "/d", listing);
      var f1 := NextImage(r.after);
      var f2 := NextImage(f1.after);
      var f3 := NextImage(f2.after);
      && r.after.dirImageList == ["/d/a.jpg", "/d/B.png", "/d/C.gif"]
      && r.after.imgFilePath == "/d/a.jpg" && r.after.display == Shown(Full, "/d/a.jpg")
      && f2.after.imgFilePath == "/d/C.gif" && f2.after.display == Shown(Full, "/d/C.gif")
      && f3.after.imgFilePath == "/d/a.jpg" && f3.after.imageNumber == 0
  {
    ScenarioImageList(listing);
    var r := OpenDir(Start, "/d", listing);
    assert Valid(r.after);
    NavigationKeepsValid(r.after);
    var f1 := NextImage(r.after);
    NavigationKeepsValid(f1.after);
    var f2 := NextImage(f1.after);
    assert f2.after.imageNumber == 2;
  }
}

=== FILE: stable_sort.dfy ===
/**
 * `list.sort(key=str.lower)` on a list of paths: a stable sort by the
 * lower-cased path.  Modelled as an insertion sort; the lemmas show that the
 * result is a sorted permutation that keeps entries with equal keys in their
 * original order, and that those three facts determine it uniquely.
 */
module StableSort {
  import opened CaseOrder

  /** The sort key comparison: `x.lower() <= y.lower()`. */
  predicate KeyLe(x: string, y: string)
  {
    LexLe(Lower(x), Lower(y))
  }

  /** Non-decreasing by lower-cased path, over every pair of positions. */
  ghost predicate Sorted(s: seq<string>)
  {
    forall i, j :: 0 <= i < j < |s| ==> KeyLe(s[i], s[j])
  }

  /** The entries of `s` whose lower-cased form is `k`, in their order in `s`. */
  function WithKey(s: seq<string>, k: string): seq<string>
  {
    if |s| == 0 then []
    else (if Lower(s[0]) == k then [s[0]] else []) + WithKey(s[1..], k)
  }

  /** Inserts `x` in front of the first entry whose key is not smaller than its own. */
  function Insert(x: string, s: seq<string>): (r: seq<string>)
    ensures multiset(r) == multiset(s) + multiset{x}
  {
    if |s| == 0 then [x]
    else if KeyLe(x, s[0]) then [x] + s
    else
      assert s == [s[0]] + s[1..];
      [s[0]] + Insert(x, s[1..])
  }

  /** The stable sort by lower-cased path. */
  function Sort(s: seq<string>): (r: seq<string>)
    ensures multiset(r) == multiset(s)
  {
    if |s| == 0 then []
    else
      assert s == [s[0]] + s[1..];
      Insert(s[0], Sort(s[1..]))
  }

  lemma {:induction false} InsertSorted(x: string, s: seq<string>)
    requires Sorted(s)
    ensures Sorted(Insert(x, s))
    decreases |s|
  {
    if |s| == 0 {
    } else if KeyLe(x, s[0]) {
      var r := [x] + s;
      forall i, j | 0 <= i < j < |r|
        ensures KeyLe(r[i], r[j])
      {
        if i == 0 && j > 1 {
          LexLeTransitive(Lower(x), Lower(s[0]), Lower(s[j - 1]));
        }
      }
    } else {
      var t := s[1..];
      InsertSorted(x, t);
      LexLeTotal(Lower(x), Lower(s[0]));
      var r := [s[0]] + Insert(x, t);
      forall i, j | 0 <= i < j < |r|
        ensures KeyLe(r[i], r[j])
      {
        if i == 0 {
          var y := r[j];
          assert y in multiset(Insert(x, t));
          if y != x {
            assert y in multiset(t);
            var m :| 0 <= m < |t| && t[m] == y;
            assert s[m + 1] == y;
          }
        }
      }
    }
  }

  lemma {:induction false} SortSorted(s: seq<string>)
    ensures Sorted(Sort(s))
    decreases |s|
  {
    if |s| > 0 {
      SortSorted(s[1..]);
      InsertSorted(s[0], Sort(s[1..]));
    }
  }

  lemma {:induction false} WithKeyAppend(a: seq<string>, b: seq<string>, k: string)
    ensures WithKey(a + b, k) == WithKey(a, k) + WithKey(b, k)
    decreases |a|
  {
    if |a| == 0 {
      assert a + b == b;
    } else {
      assert (a + b)[0] == a[0];
      assert (a + b)[1..] == a[1..] + b;
      WithKeyAppend(a[1..], b, k);
    }
  }

  /** Inserting `x` adds it in front of every entry with the same key. */
  lemma {:induction false} InsertWithKey(x: string, s: seq<string>, k: string)
    ensures WithKey(Insert(x, s), k) == (if Lower(x) == k then [x] else []) + WithKey(s, k)
    decreases |s|
  {
    var own := if Lower(x) == k then [x] else [];
    if |s| == 0 {
      assert WithKey([x], k) == own + WithKey([x][1..], k);
    } else if KeyLe(x, s[0]) {
      var r := [x] + s;
      assert r[0] == x && r[1..] == s;
      assert WithKey(r, k) == own + WithKey(s, k);
    } else {
      var s0, t := s[0], s[1..];
      var head := if Lower(s0) == k then [s0] else [];
      var r := [s0] + Insert(x, t);
      assert r[0] == s0 && r[1..] == Insert(x, t);
      assert WithKey(r, k) == head + WithKey(Insert(x, t), k);
      InsertWithKey(x, t, k);
      assert WithKey(s, k) == head + WithKey(t, k);
      if Lower(x) == Lower(s0) {
        LexLeReflexive(Lower(x));
      }
      assert head == [] || own == [];
    }
  }

  /** Entries with equal lower-cased paths keep their original relative order. */
  lemma {:induction false} SortStable(s: seq<string>, k: string)
    ensures WithKey(Sort(s), k) == WithKey(s, k)
    decreases |s|
  {
    if |s| > 0 {
      SortStable(s[1..], k);
      InsertWithKey(s[0], Sort(s[1..]), k);
    }
  }

  lemma {:induction false} WithKeyMembers(s: seq<string>, k: string, x: string)
    ensures x in WithKey(s, k) <==> x in s && Lower(x) == k
    decreases |s|
  {
    if |s| > 0 {
      WithKeyMembers(s[1..], k, x);
      assert s == [s[0]] + s[1..];
    }
  }

  /** Two sorted sequences with the same entries per key are equal. */
  lemma {:induction false} SortedUnique(r: seq<string>, t: seq<string>)
    requires Sorted(r) && Sorted(t)
    requires forall k :: WithKey(r, k) == WithKey(t, k)
    ensures r == t
    decreases |r| + |t|
  {
    if |r| > 0 {
      WithKeyMembers(r, Lower(r[0]), r[0]);
      WithKeyMembers(t, Lower(r[0]), r[0]);
    }
    if |t| > 0 {
      WithKeyMembers(t, Lower(t[0]), t[0]);
      WithKeyMembers(r, Lower(t[0]), t[0]);
    }
    if |r| > 0 {
      var a, b := r[0], t[0];
      var ka, kb := Lower(a), Lower(b);
      WithKeyMembers(r, ka, a);
      WithKeyMembers(t, ka, a);
      var j :| 0 <= j < |t| && t[j] == a;
      WithKeyMembers(t, kb, b);
      WithKeyMembers(r, kb, b);
      var i :| 0 <= i < |r| && r[i] == b;
      if j > 0 {
        assert KeyLe(b, a);
      } else {
        LexLeReflexive(ka);
      }
      if i > 0 {
        assert KeyLe(a, b);
      } else {
        LexLeReflexive(kb);
      }
      LexLeAntisymmetric(ka, kb);
      assert a == b by {
        assert WithKey(r, ka)[0] == a;
        assert WithKey(t, ka)[0] == b;
      }
      forall k
        ensures WithKey(r[1..], k) == WithKey(t[1..], k)
      {
        var head := if Lower(a) == k then [a] else [];
        assert WithKey(r, k) == head + WithKey(r[1..], k);
        assert WithKey(t, k) == head + WithKey(t[1..], k);
        assert WithKey(r, k) == WithKey(t, k);
        assert WithKey(r[1..], k) == WithKey(r, k)[|head|..];
        assert WithKey(t[1..], k) == WithKey(t, k)[|head|..];
      }
      SortedUnique(r[1..], t[1..]);
      assert r == [a] + r[1..];
      assert t == [b] + t[1..];
    }
  }

  /** `Sort` is the stable sort: any sorted arrangement of `s` that keeps equal
      keys in their original order is exactly `Sort(s)`. */
  lemma SortIsTheStableSort(s: seq<string>, r: seq<string>)
    requires Sorted(r)
    requires forall k :: WithKey(r, k) == WithKey(s, k)
    ensures r == Sort(s)
  {
    SortSorted(s);
    forall k
      ensures WithKey(r, k) == WithKey(Sort(s), k)
    {
      SortStable(s, k);
    }
    SortedUnique(r, Sort(s));
  }

  /** Sorting the keys `/d/b.png`, `/d/a.jpg`, `/d/c.gif`. */
  lemma KeyExamples()
    ensures !KeyLe("/d/C.gif", "/d/a.jpg") && KeyLe("/d/a.jpg", "/d/C.gif")
    ensures !KeyLe("/d/B.png", "/d/a.jpg") && KeyLe("/d/B.png", "/d/C.gif")
  {
    assert Lower("/d/B.png") == "/d/b.png" && Lower("/d/a.jpg") == "/d/a.jpg" && Lower("/d/C.gif") == "/d/c.gif";
    assert LexLe("d/c.gif", "d/a.jpg") == LexLe("/c.gif", "/a.jpg");
    assert LexLe("/c.gif", "/a.jpg") == LexLe("c.gif", "a.jpg");
    assert LexLe("d/a.jpg", "d/c.gif") == LexLe("/a.jpg", "/c.gif");
    assert LexLe("/a.jpg", "/c.gif") == LexLe("a.jpg", "c.gif");
    assert LexLe("d/b.png", "d/a.jpg") == LexLe("/b.png", "/a.jpg");
    assert LexLe("/b.png", "/a.jpg") == LexLe("b.png", "a.jpg");
    assert LexLe("d/b.png", "d/c.gif") == LexLe("/b.png", "/c.gif");
    assert LexLe("/b.png", "/c.gif") == LexLe("b.png", "c.gif");
  }

  /** Upper- and lower-case names interleave alphabetically rather than all
      capitals first, as plain `sort()` would order them. */
  lemma CaseInsensitiveOrderExample()
    ensures Sort(["/d/B.png", "/d/a.jpg", "/d/C.gif"]) == ["/d/a.jpg", "/d/B.png", "/d/C.gif"]
    ensures LexLe("/d/B.png", "/d/a.jpg")
  {
    var s := ["/d/B.png", "/d/a.jpg", "/d/C.gif"];
    KeyExamples();
    assert Sort(s[2..]) == ["/d/C.gif"];
    assert Sort(s[1..]) == Insert("/d/a.jpg", ["/d/C.gif"]) == ["/d/a.jpg", "/d/C.gif"];
    assert Insert("/d/B.png", ["/d/C.gif"]) == ["/d/B.png", "/d/C.gif"];
    assert LexLe("d/B.png", "d/a.jpg") == LexLe("/B.png", "/a.jpg");
    assert LexLe("/B.png", "/a.jpg") == LexLe("B.png", "a.jpg");
  }
}

=== FILE: timeline.dfy ===
/**
 * Resizes over time.  A drag delivers the label's resize events at the given
 * times; the timer's timeout is delivered before the first event at or after
 * its deadline.  Because an armed timer is never restarted, a burst of
 * resizes shorter than the interval gets exactly one full-quality redraw, 250
 * ms after its FIRST resize, and a longer drag gets full-quality redraws in
 * the middle of the drag.
 */
module Timeline {
  import opened Wrappers
  import opened Viewer

  /** The timeout falls due at or before `now`. */
  predicate Due(v: ViewerState, now: int)
  {
    v.timer.Some? && v.timer.value <= now
  }

  /** The window just before an event at `now`: a due timeout is delivered first. */
  function Settle(v: ViewerState, now: int): ViewerState
  {
    if Due(v, now) then TimerFired(v) else v
  }

  /** Resizes at `times`; yields the final window and how many timeouts
      (full-quality redraws) were delivered during the drag. */
  function Drag(v: ViewerState, times: seq<int>): (ViewerState, nat)
    decreases |times|
  {
    if |times| == 0 then (v, 0)
    else
      var u := Resize(Settle(v, times[0]), times[0]).after;
      var (w, n) := Drag(u, times[1..]);
      (w, n + if Due(v, times[0]) then 1 else 0)
  }

  /** With the timer armed and every resize before its deadline: no timeout,
      the deadline stays put, and the label shows the thumbnail. */
  lemma {:induction false} ArmedBurst(v: ViewerState, times: seq<int>)
    requires v.timer.Some? && v.imgFilePath != "" && v.thumbOf.Some?
    requires forall i :: 0 <= i < |times| ==> times[i] < v.timer.value
    ensures Drag(v, times).1 == 0
    ensures Drag(v, times).0.timer == v.timer
    ensures Drag(v, times).0.imgFilePath == v.imgFilePath && Drag(v, times).0.thumbOf == v.thumbOf
    ensures |times| > 0 ==> Drag(v, times).0.display == Shown(Thumbnail, v.thumbOf.value)
    decreases |times|
  {
    if |times| > 0 {
      var u := Resize(v, times[0]).after;
      assert Settle(v, times[0]) == v;
      if |times| > 1 {
        ArmedBurst(u, times[1..]);
      }
    }
  }

  /** A burst of resizes all within the interval after the first one: the
      timer is armed once, at the first resize, nothing is upgraded during the
      burst, and the one timeout afterwards shows the current file at full
      quality and leaves the timer stopped. */
  lemma BurstUpgradesOnce(v: ViewerState, times: seq<int>, later: int)
    requires v.timer.None? && v.imgFilePath != "" && v.thumbOf.Some? && |times| > 0
    requires forall i :: 0 <= i < |times| ==> times[i] < times[0] + TimerInterval
    requires later >= times[0] + TimerInterval
    ensures var (w, n) := Drag(v, times);
      && n == 0
      && w.timer == Some(times[0] + TimerInterval)
      && w.display == Shown(Thumbnail, v.thumbOf.value)
      && Settle(w, later).display == Shown(Full, v.imgFilePath)
      && Settle(w, later).timer.None?
  {
    var u := Resize(v, times[0]).after;
    ArmedBurst(u, times[1..]);
  }

  /** With the timer armed for `d`, a drag reaching `d` gets a full-quality
      redraw during the drag. */
  lemma {:induction false} ArmedDragUpgrades(v: ViewerState, times: seq<int>, i: int)
    requires v.timer.Some? && v.imgFilePath != "" && v.thumbOf.Some?
    requires 0 <= i < |times| && times[i] >= v.timer.value
    ensures Drag(v, times).1 >= 1
    decreases i
  {
    if !Due(v, times[0]) {
      var u := Resize(v, times[0]).after;
      ArmedDragUpgrades(u, times[1..], i - 1);
    }
  }

  /** Not a debounce: a drag lasting at least the interval gets a
      full-quality redraw before it ends, 250 ms after its first resize. */
  lemma LongDragUpgradesMidway(v: ViewerState, times: seq<int>, i: int)
    requires v.timer.None? && v.imgFilePath != "" && v.thumbOf.Some?
    requires 0 < i < |times| && times[i] >= times[0] + TimerInterval
    ensures Drag(v, times).1 >= 1
  {
    var u := Resize(v, times[0]).after;
    ArmedDragUpgrades(u, times[1..], i - 1);
  }
}

=== FILE: viewer.dfy ===
/**
 * The main window's selection and render state (`MainUi` in
 * `ascv_main.py`) as an immutable record, with one pure transition per event.
 *
 * An exception raised inside a Qt slot is logged by the excepthook and the
 * window keeps running on whatever the slot had already assigned, so a
 * transition yields a `Step` carrying the state after the event either way.
 * Pixels are abstracted to a `Display` tag: which file is shown, and whether
 * from the scratch thumbnail or at full quality.
 */
module Viewer {
  import opened Wrappers
  import opened Paths
  import opened DirScan

  /** Milliseconds from arming the redraw timer to its timeout. */
  const TimerInterval: int := 250

  datatype Quality = Thumbnail | Full

  /** What the image label shows.  `Shown(_, "")` is the empty pixmap that
      `QPixmap("")` gives, which leaves the label as blank as `Blank`. */
  datatype Display = Blank | Shown(quality: Quality, path: string)

  /** The Python exceptions a slot can raise part-way. */
  datatype Fault =
    | NotInList        // `dirImageList.index(imgFilePath)` raised ValueError
    | NoThumbnail      // `self.imTOut` was read before any thumbnail was written
    | IndexOutOfRange  // `dirImageList[imageNumber]` raised IndexError

  /**
   * `thumbOf` is the file whose thumbnail occupies the single scratch slot
   * (`imTOut`), `None` before the first render; `timer` is the deadline of the
   * armed timer, `None` while it is inactive; `navEnabled` stands for the
   * back, forward and copy-details actions, which are enabled together.
   */
  datatype ViewerState = ViewerState(
    dirPath: string,
    dirImageList: seq<string>,
    imageNumber: int,
    imgFilePath: string,
    navEnabled: bool,
    thumbOf: Option<string>,
    timer: Option<int>,
    display: Display)

  datatype Step = Done(after: ViewerState) | Raised(after: ViewerState, fault: Fault)

  /** The window as `__init__` leaves it. */
  const Start := ViewerState("", [], 0, "", false, None, None, Blank)

  /** Every listed path is non-empty, and whenever navigation is enabled the
      index points into the list and a thumbnail has been written. */
  predicate Valid(v: ViewerState)
  {
    && (forall i :: 0 <= i < |v.dirImageList| ==> v.dirImageList[i] != "")
    && (v.navEnabled ==> 0 <= v.imageNumber < |v.dirImageList| && v.thumbOf.Some?)
  }

  /** The selected list entry is the current file and is shown at full quality. */
  predicate ShowsSelection(v: ViewerState)
  {
    && 0 <= v.imageNumber < |v.dirImageList|
    && v.imgFilePath == v.dirImageList[v.imageNumber]
    && v.display == Shown(Full, v.imgFilePath)
  }

  /** Folder, list, index and navigation actions agree. */
  predicate SameNavigation(a: ViewerState, b: ViewerState)
  {
    a.dirPath == b.dirPath && a.dirImageList == b.dirImageList
    && a.imageNumber == b.imageNumber && a.navEnabled == b.navEnabled
  }

  /** Python's `s[i]`: negative positions count from the end; `None` where
      Python raises IndexError. */
  function PyIndex(s: seq<string>, i: int): (r: Option<string>)
    ensures r.None? <==> !(-|s| <= i < |s|)
    ensures 0 <= i < |s| ==> r == Some(s[i])
    ensures -|s| <= i < 0 ==> r == Some(s[|s| + i])
  {
    if 0 <= i < |s| then Some(s[i])
    else if -|s| <= i < 0 then Some(s[|s| + i])
    else None
  }

  /** `updateFunction(0)`: writes the thumbnail of the current file into the
      scratch slot and ends showing the file at full quality; the timer is not
      touched. */
  function Render(v: ViewerState): (r: ViewerState)
    ensures r.timer == v.timer && SameNavigation(r, v) && r.imgFilePath == v.imgFilePath
    ensures v.imgFilePath != "" ==> r.display == Shown(Full, v.imgFilePath) && r.thumbOf == Some(v.imgFilePath)
    ensures v.imgFilePath == "" ==> r == v
  {
    if v.imgFilePath == "" then v
    else v.(thumbOf := Some(v.imgFilePath), display := Shown(Full, v.imgFilePath))
  }

  /** `updateFunction(1)`, run on every resize of the label at time `now`:
      arms the timer only when it is inactive, then redraws from the scratch
      thumbnail. */
  function Resize(v: ViewerState, now: int): (r: Step)
    ensures v.imgFilePath == "" ==> r == Done(v)
    ensures v.imgFilePath != "" && v.timer.None? ==> r.after.timer == Some(now + TimerInterval)
    ensures v.timer.Some? ==> r.after.timer == v.timer
    ensures v.imgFilePath != "" && v.thumbOf.Some? ==> r.Done? && r.after.display == Shown(Thumbnail, v.thumbOf.value)
    ensures v.imgFilePath != "" && v.thumbOf.None? ==> r.Raised? && r.fault == NoThumbnail && r.after.display == v.display
    ensures SameNavigation(r.after, v) && r.after.imgFilePath == v.imgFilePath && r.after.thumbOf == v.thumbOf
  {
    if v.imgFilePath == "" then Done(v)
    else
      var armed := if v.timer.None? then v.(timer := Some(now + TimerInterval)) else v;
      match v.thumbOf
      case None => Raised(armed, NoThumbnail)
      case Some(t) => Done(armed.(display := Shown(Thumbnail, t)))
  }

  /** `updateTimerFunc`: the timeout redraws whatever file is current when it
      fires, at full quality, and stops the timer. */
  function TimerFired(v: ViewerState): (r: ViewerState)
    requires v.timer.Some?
    ensures r.display == Shown(Full, v.imgFilePath) && r.timer.None?
    ensures SameNavigation(r, v) && r.imgFilePath == v.imgFilePath && r.thumbOf == v.thumbOf
  {
    v.(display := Shown(Full, v.imgFilePath), timer := None)
  }

  /** Selects list entry `i`, renders it and enables navigation. */
  function Select(v: ViewerState, i: int): (r: ViewerState)
    requires 0 <= i < |v.dirImageList|
    ensures r.imageNumber == i && r.navEnabled && r.imgFilePath == v.dirImageList[i]
    ensures v.dirImageList[i] != "" ==> ShowsSelection(r) && r.thumbOf == Some(v.dirImageList[i])
    ensures r.dirPath == v.dirPath && r.dirImageList == v.dirImageList && r.timer == v.timer
  {
    Render(v.(imageNumber := i, imgFilePath := v.dirImageList[i])).(navEnabled := true)
  }

  /** The second half of `dirMakeImageList`, once the folder's list `found`
      is built: an empty list changes nothing; otherwise it replaces the old
      list and the opened file (or entry 0) is selected. */
  function Adopt(v: ViewerState, found: seq<string>, hasOpenedImage: bool): (r: Step)
    requires forall p :: p in found ==> p != ""
    ensures r.after.dirPath == v.dirPath && r.after.timer == v.timer
    ensures found == [] ==> r == Done(v)
    ensures found != [] ==> r.after.dirImageList == found
    ensures found != [] && !hasOpenedImage ==>
      r.Done? && r.after.imageNumber == 0 && r.after.navEnabled && ShowsSelection(r.after)
    ensures found != [] && hasOpenedImage && v.imgFilePath in found ==>
      && r.Done? && r.after.navEnabled && ShowsSelection(r.after)
      && r.after.imgFilePath == v.imgFilePath
      && v.imgFilePath !in found[..r.after.imageNumber]
    ensures found != [] && hasOpenedImage && v.imgFilePath !in found ==>
      r == Raised(v.(dirImageList := found), NotInList)
    ensures r.Done? ==> Valid(r.after) || r.after == v
  {
    if |found| == 0 then Done(v)
    else
      assert forall j :: 0 <= j < |found| ==> found[j] != "" by {
        forall j | 0 <= j < |found|
          ensures found[j] != ""
        {
          assert found[j] in found;
        }
      }
      var w := v.(dirImageList := found);
      if hasOpenedImage then
        match IndexOf(found, v.imgFilePath)
        case None => Raised(w, NotInList)
        case Some(i) => Done(Select(w, i))
      else Done(Select(w, 0))
  }

  /** `dirMakeImageList(hasOpenedImage)` for the folder `v.dirPath`, whose
      entries are `listing`. */
  function MakeImageList(v: ViewerState, listing: seq<string>, hasOpenedImage: bool): (r: Step)
    ensures r.after.dirPath == v.dirPath && r.after.timer == v.timer
    ensures ImageList(listing) == [] ==> r == Done(v)
    ensures ImageList(listing) != [] ==> r.after.dirImageList == ImageList(listing)
    ensures ImageList(listing) != [] && !hasOpenedImage ==>
      r.Done? && r.after.imageNumber == 0 && r.after.navEnabled && ShowsSelection(r.after)
    ensures ImageList(listing) != [] && hasOpenedImage && v.imgFilePath in ImageList(listing) ==>
      && r.Done? && r.after.navEnabled && ShowsSelection(r.after)
      && r.after.imgFilePath == v.imgFilePath
      && v.imgFilePath !in ImageList(listing)[..r.after.imageNumber]
    ensures ImageList(listing) != [] && hasOpenedImage && v.imgFilePath !in ImageList(listing) ==>
      && r.Raised? && r.fault == NotInList
      && r.after == v.(dirImageList := ImageList(listing))
    ensures r.Done? ==> Valid(r.after) || r.after == v
  {
    Adopt(v, ImageList(listing), hasOpenedImage)
  }

  /** `openDir` after the folder dialog returned `chosen` ("" when cancelled);
      `listing` is what the folder's globs enumerate. */
  function OpenDir(v: ViewerState, chosen: string, listing: seq<string>): (r: Step)
    ensures r.Done? && r.after.timer == v.timer
    ensures chosen == "" || chosen == v.dirPath ==> r.after == v
    ensures chosen != "" && chosen != v.dirPath && ImageList(listing) == [] ==>
      r.after == v.(dirPath := chosen)
    ensures chosen != "" && chosen != v.dirPath && ImageList(listing) != [] ==>
      && r.after.dirPath == chosen && r.after.dirImageList == ImageList(listing)
      && r.after.imageNumber == 0 && r.after.navEnabled && ShowsSelection(r.after)
  {
    if chosen != "" then
      if v.dirPath != "" then
        if v.dirPath != chosen then MakeImageList(v.(dirPath := chosen), listing, false)
        else Done(v)
      else MakeImageList(v.(dirPath := chosen), listing, false)
    else Done(v)
  }

  /** The folder `openImage` compares with `dirPath` is the one it already knows. */
  predicate SameFolder(v: ViewerState, folder: string)
  {
    v.dirPath != "" && v.dirPath == folder
  }

  /** The body of `openImage` once the dialog returned a non-empty path, which
      `v.imgFilePath` already holds, and its folder was computed as `folder`:
      rescan unless `folder` is string-equal to the known non-empty `dirPath`.
      Without a rescan only the index moves, to the first entry naming the
      file, and a file missing from the list raises `NotInList` with nothing
      changed. */
  function OpenImageIn(v: ViewerState, folder: string, listing: seq<string>): (r: Step)
    ensures r.after.timer == v.timer && r.after.imgFilePath == v.imgFilePath
    ensures r.after.dirPath == folder
    ensures SameFolder(v, folder) && v.imgFilePath in v.dirImageList ==>
      && r.Done? && r.after == v.(imageNumber := r.after.imageNumber)
      && 0 <= r.after.imageNumber < |v.dirImageList|
      && v.dirImageList[r.after.imageNumber] == v.imgFilePath
      && v.imgFilePath !in v.dirImageList[..r.after.imageNumber]
    ensures SameFolder(v, folder) && v.imgFilePath !in v.dirImageList ==> r == Raised(v, NotInList)
    ensures !SameFolder(v, folder) ==> r == MakeImageList(v.(dirPath := folder), listing, true)
  {
    if v.dirPath != "" then
      if v.dirPath != folder then MakeImageList(v.(dirPath := folder), listing, true)
      else
        match IndexOf(v.dirImageList, v.imgFilePath)
        case None => Raised(v, NotInList)
        case Some(i) => Done(v.(imageNumber := i))
    else MakeImageList(v.(dirPath := folder), listing, true)
  }

  /** `openImage` as written: the folder is computed by deleting every
      occurrence of the file name, and re-opening a file of the known folder
      only moves the index, without redrawing. */
  function OpenImageAsWritten(v: ViewerState, chosen: string, listing: seq<string>): (r: Step)
    ensures chosen == "" ==> r == Done(v.(imgFilePath := ""))
    ensures r.after.timer == v.timer && r.after.imgFilePath == chosen
    ensures chosen != "" ==> r.after.dirPath == ImageFolderByReplace(chosen)
    ensures chosen != "" && SameFolder(v, ImageFolderByReplace(chosen)) && chosen in v.dirImageList ==>
      && r.Done? && r.after == v.(imgFilePath := chosen, imageNumber := r.after.imageNumber)
      && 0 <= r.after.imageNumber < |v.dirImageList|
      && v.dirImageList[r.after.imageNumber] == chosen
      && chosen !in v.dirImageList[..r.after.imageNumber]
    ensures chosen != "" && SameFolder(v, ImageFolderByReplace(chosen)) && chosen !in v.dirImageList ==>
      r == Raised(v.(imgFilePath := chosen), NotInList)
    ensures chosen != "" && !SameFolder(v, ImageFolderByReplace(chosen)) ==>
      r == MakeImageList(v.(imgFilePath := chosen, dirPath := ImageFolderByReplace(chosen)), listing, true)
  {
    if chosen == "" then Done(v.(imgFilePath := ""))
    else OpenImageIn(v.(imgFilePath := chosen), ImageFolderByReplace(chosen), listing)
  }

  /** `openImage` corrected: as `OpenImageAsWritten`, except that the folder
      is the path up to its last '/' and a file of the known folder is
      redrawn.  The event loop runs the code as written; this definition is
      what `Findings` compares it with. */
  function OpenImage(v: ViewerState, chosen: string, listing: seq<string>): (r: Step)
    ensures chosen == "" ==> r == Done(v.(imgFilePath := ""))
    ensures r.after.timer == v.timer && r.after.imgFilePath == chosen
    ensures chosen != "" ==> r.after.dirPath == ImageFolder(chosen)
  {
    if chosen == "" then Done(v.(imgFilePath := ""))
    else
      var folder := ImageFolder(chosen);
      var s := OpenImageIn(v.(imgFilePath := chosen), folder, listing);
      if SameFolder(v, folder) && s.Done? then Done(Render(s.after)) else s
  }

  /** `nextImage`: one step forward, wrapping from the last entry to the first.
      The new index is stored before the list is read, so an index Python
      cannot read leaves it stored and raises with nothing else changed. */
  function NextImage(v: ViewerState): (r: Step)
    requires v.navEnabled
    ensures r.after.imageNumber == if v.imageNumber != |v.dirImageList| - 1 then v.imageNumber + 1 else 0
    ensures r.Raised? <==> !(-|v.dirImageList| <= r.after.imageNumber < |v.dirImageList|)
    ensures r.Raised? ==> r.fault == IndexOutOfRange && r.after == v.(imageNumber := r.after.imageNumber)
    ensures r.Done? ==>
      && PyIndex(v.dirImageList, r.after.imageNumber) == Some(r.after.imgFilePath)
      && (r.after.imgFilePath != "" ==> r.after.display == Shown(Full, r.after.imgFilePath))
    ensures Valid(v) ==>
      r.Done? && r.after.imageNumber == (v.imageNumber + 1) % |v.dirImageList| && ShowsSelection(r.after)
    ensures r.after.timer == v.timer && r.after.navEnabled
    ensures r.after.dirPath == v.dirPath && r.after.dirImageList == v.dirImageList
  {
    var n := if v.imageNumber != |v.dirImageList| - 1 then v.imageNumber + 1 else 0;
    var w := v.(imageNumber := n);
    match PyIndex(w.dirImageList, n)
    case None => Raised(w, IndexOutOfRange)
    case Some(p) => Done(Render(w.(imgFilePath := p)))
  }

  /** `prevImage`: one step back, wrapping from the first entry to the last,
      with the same failure behaviour as `NextImage`. */
  function PrevImage(v: ViewerState): (r: Step)
    requires v.navEnabled
    ensures r.after.imageNumber == if v.imageNumber != 0 then v.imageNumber - 1 else |v.dirImageList| - 1
    ensures r.Raised? <==> !(-|v.dirImageList| <= r.after.imageNumber < |v.dirImageList|)
    ensures r.Raised? ==> r.fault == IndexOutOfRange && r.after == v.(imageNumber := r.after.imageNumber)
    ensures r.Done? ==>
      && PyIndex(v.dirImageList, r.after.imageNumber) == Some(r.after.imgFilePath)
      && (r.after.imgFilePath != "" ==> r.after.display == Shown(Full, r.after.imgFilePath))
    ensures Valid(v) ==>
      r.Done? && r.after.imageNumber == (v.imageNumber - 1) % |v.dirImageList| && ShowsSelection(r.after)
    ensures r.after.timer == v.timer && r.after.navEnabled
    ensures r.after.dirPath == v.dirPath && r.after.dirImageList == v.dirImageList
  {
    var n := if v.imageNumber != 0 then v.imageNumber - 1 else |v.dirImageList| - 1;
    var w := v.(imageNumber := n);
    match PyIndex(w.dirImageList, n)
    case None => Raised(w, IndexOutOfRange)
    case Some(p) => Done(Render(w.(imgFilePath := p)))
  }

  /** The events the window reacts to. */
  datatype Event =
    | ImageChosen(chosen: string, listing: seq<string>)   // "Open image" and its dialog
    | FolderChosen(chosen: string, listing: seq<string>)  // "Open directory" and its dialog
    | BackPressed
    | ForwardPressed
    | LabelResized(now: int)
    | TimerTimeout

  /** Disabled actions cannot be triggered and an inactive timer never times out. */
  predicate Enabled(v: ViewerState, e: Event)
  {
    match e
    case BackPressed => v.navEnabled
    case ForwardPressed => v.navEnabled
    case TimerTimeout => v.timer.Some?
    case _ => true
  }

  /** The window's signal wiring: each event runs its slot, the image open as
      written.  What each kind of event can and cannot change: */
  function Apply(v: ViewerState, e: Event): (r: Step)
    requires Enabled(v, e)
    ensures e.ImageChosen? ==> r.after.imgFilePath == e.chosen
    ensures e.FolderChosen? ==> r.Done? && (e.chosen == "" || e.chosen == v.dirPath ==> r.after == v)
    ensures e.BackPressed? || e.ForwardPressed? ==>
      r.after.dirPath == v.dirPath && r.after.dirImageList == v.dirImageList && r.after.navEnabled
    ensures !e.LabelResized? && !e.TimerTimeout? ==> r.after.timer == v.timer
    ensures e.LabelResized? ==> SameNavigation(r.after, v) && r.after.imgFilePath == v.imgFilePath
    ensures e.LabelResized? && v.imgFilePath != "" ==> r.after.timer.Some?
    ensures e.TimerTimeout? ==>
      r.Done? && r.after.timer.None? && r.after.display == Shown(Full, v.imgFilePath)
  {
    match e
    case ImageChosen(chosen, listing) => OpenImageAsWritten(v, chosen, listing)
    case FolderChosen(chosen, listing) => OpenDir(v, chosen, listing)
    case BackPressed => PrevImage(v)
    case ForwardPressed => NextImage(v)
    case LabelResized(now) => Resize(v, now)
    case TimerTimeout => Done(TimerFired(v))
  }
}

=== FILE: viewer_props.dfy ===
/**
 * Properties of the viewer's transitions: when opening rescans and when it
 * does not, wrap-around navigation and its round trip, the invariant every
 * completed event keeps, and what the timer does across selections.
 */
module ViewerProps {
  import opened Wrappers
  import opened Paths
  import opened DirScan
  import opened Viewer

  /** Opening a file of the folder already scanned (by the replace-based
      folder) only moves the index to the file's first position: list,
      navigation, display and scratch thumbnail stay as they were, and a file
      missing from the list raises ValueError.  The invariant survives. */
  lemma OpenImageSameFolder(v: ViewerState, chosen: string, listing: seq<string>)
    requires chosen != "" && SameFolder(v, ImageFolderByReplace(chosen))
    ensures var r := OpenImageAsWritten(v, chosen, listing);
      && r.after.dirImageList == v.dirImageList && r.after.navEnabled == v.navEnabled
      && r.after.display == v.display && r.after.thumbOf == v.thumbOf
      && (chosen in v.dirImageList ==>
            && r.Done? && 0 <= r.after.imageNumber < |v.dirImageList|
            && v.dirImageList[r.after.imageNumber] == chosen
            && chosen !in v.dirImageList[..r.after.imageNumber])
      && (chosen !in v.dirImageList ==>
            r.Raised? && r.fault == NotInList && r.after.imageNumber == v.imageNumber)
      && (Valid(v) ==> Valid(r.after))
  {
  }

  /** Opening a file of the folder already scanned does not look at the
      folder's contents at all: no rescan happens. */
  lemma OpenImageSameFolderIgnoresListing(v: ViewerState, chosen: string, l1: seq<string>, l2: seq<string>)
    requires chosen != "" && SameFolder(v, ImageFolderByReplace(chosen))
    ensures OpenImageAsWritten(v, chosen, l1) == OpenImageAsWritten(v, chosen, l2)
  {
    var u := v.(imgFilePath := chosen);
    assert OpenImageIn(u, ImageFolderByReplace(chosen), l1) == OpenImageIn(u, ImageFolderByReplace(chosen), l2);
  }

  /** Opening a file of any other folder, or with no folder known, rescans
      the replace-based folder: an empty rescan keeps list, index and display
      (only the path and the folder are overwritten); otherwise the new list
      replaces the old and the file is selected at its first position, or
      ValueError is raised with the old index and navigation state left in
      place. */
  lemma OpenImageOtherFolder(v: ViewerState, chosen: string, listing: seq<string>)
    requires chosen != "" && !SameFolder(v, ImageFolderByReplace(chosen))
    ensures var r := OpenImageAsWritten(v, chosen, listing);
      && (ImageList(listing) == [] ==>
            r == Done(v.(imgFilePath := chosen, dirPath := ImageFolderByReplace(chosen))))
      && (ImageList(listing) != [] ==> r.after.dirImageList == ImageList(listing))
      && (ImageList(listing) != [] && chosen in ImageList(listing) ==>
            && r.Done? && r.after.navEnabled && ShowsSelection(r.after)
            && chosen !in ImageList(listing)[..r.after.imageNumber])
      && (ImageList(listing) != [] && chosen !in ImageList(listing) ==>
            && r.Raised? && r.fault == NotInList
            && r.after.imageNumber == v.imageNumber && r.after.navEnabled == v.navEnabled)
  {
  }

  /** `openDir` records a folder without a trailing '/', `openImage` with one:
      after opening folder `d`, opening one of its files never finds `d`
      again, so it rescans, into `d` with the file name deleted and a '/'
      appended.  A root folder already ends in '/', and the dialog spells
      its files `/name`, not `//name`: see `RootSpellingsAgree`. */
  lemma OpenDirThenImageRescans(v: ViewerState, d: string, name: string, listing: seq<string>)
    requires v.dirPath == d && d != ""
    requires '/' !in name
    ensures var r := OpenImageAsWritten(v, d + "/" + name, listing);
      && r.after.dirPath == DeleteAll(d, name) + "/"
      && r.after.dirPath != d
      && (ImageList(listing) != [] ==> r.after.dirImageList == ImageList(listing))
  {
    ByReplaceOfChild(d, name);
    ByReplaceOfChildIsNotParent(d, name);
    OpenImageOtherFolder(v, d + "/" + name, listing);
  }

  /** At a file-system root both spellings are the same string: the folder
      dialog returns `/` or `C:/`, and the replace-based folder of a file
      there is that root again.  Opening a file of the root folder after the
      root itself therefore does not rescan, and opening the root after one
      of its files changes nothing. */
  lemma RootSpellingsAgree(v: ViewerState, root: string, name: string, l1: seq<string>, l2: seq<string>)
    requires root == "/" || (|root| == 3 && root[1] == ':' && root[2] == '/')
    requires '/' !in name && |name| >= 3
    requires v.dirPath == root
    ensures ImageFolderByReplace(root + name) == root
    ensures SameFolder(v, ImageFolderByReplace(root + name))
    ensures OpenImageAsWritten(v, root + name, l1) == OpenImageAsWritten(v, root + name, l2)
    ensures OpenDir(v, root, l1).after == v
  {
    var drive := root[..|root| - 1];
    assert root + name == drive + "/" + name;
    ByReplaceOfChild(drive, name);
    assert DeleteAll(drive, name) == drive;
    OpenImageSameFolderIgnoresListing(v, root + name, l1, l2);
  }

  /** ... and after opening a file, opening its folder rescans it too. */
  lemma OpenImageThenDirRescans(v: ViewerState, d: string, listing: seq<string>)
    requires v.dirPath == d + "/" && d != ""
    ensures var r := OpenDir(v, d, listing);
      && r.after.dirPath == d
      && (ImageList(listing) != [] ==> r.after.dirImageList == ImageList(listing))
  {
    assert |v.dirPath| != |d|;
  }

  /** From the last entry, forward wraps to the first; otherwise it advances. */
  lemma NextWraps(v: ViewerState)
    requires Valid(v) && v.navEnabled
    ensures v.imageNumber == |v.dirImageList| - 1 ==> NextImage(v).after.imageNumber == 0
    ensures v.imageNumber < |v.dirImageList| - 1 ==> NextImage(v).after.imageNumber == v.imageNumber + 1
  {
  }

  /** From the first entry, back wraps to the last; otherwise it steps back. */
  lemma PrevWraps(v: ViewerState)
    requires Valid(v) && v.navEnabled
    ensures v.imageNumber == 0 ==> PrevImage(v).after.imageNumber == |v.dirImageList| - 1
    ensures v.imageNumber > 0 ==> PrevImage(v).after.imageNumber == v.imageNumber - 1
  {
  }

  /** Forward and back keep the invariant. */
  lemma NavigationKeepsValid(v: ViewerState)
    requires Valid(v) && v.navEnabled
    ensures Valid(NextImage(v).after) && Valid(PrevImage(v).after)
  {
  }

  lemma ModBelow(a: int, n: int)
    requires 0 <= a < n
    ensures a % n == a
  {
  }

  lemma ModEnds(n: int)
    requires 0 < n
    ensures n % n == 0 && (-1) % n == n - 1
  {
  }

  lemma StepForwardThenBack(i: int, n: int)
    requires 0 <= i < n
    ensures ((i + 1) % n - 1) % n == i
  {
    if i == n - 1 {
      ModEnds(n);
    } else {
      ModBelow(i + 1, n);
      ModBelow(i, n);
    }
  }

  lemma StepBackThenForward(i: int, n: int)
    requires 0 <= i < n
    ensures ((i - 1) % n + 1) % n == i
  {
    if i == 0 {
      ModEnds(n);
    } else {
      ModBelow(i - 1, n);
      ModBelow(i, n);
    }
  }

  /** Forward then back returns to the same entry, shown at full quality. */
  lemma NextThenPrev(v: ViewerState)
    requires Valid(v) && v.navEnabled
    ensures var w := PrevImage(NextImage(v).after).after;
      w.imageNumber == v.imageNumber && ShowsSelection(w)
      && w.dirImageList == v.dirImageList && w.timer == v.timer
  {
    NavigationKeepsValid(v);
    var u := NextImage(v).after;
    var w := PrevImage(u).after;
    StepForwardThenBack(v.imageNumber, |v.dirImageList|);
    assert w.imageNumber == (u.imageNumber - 1) % |u.dirImageList|;
  }

  /** Back then forward returns to the same entry, shown at full quality. */
  lemma PrevThenNext(v: ViewerState)
    requires Valid(v) && v.navEnabled
    ensures var w := NextImage(PrevImage(v).after).after;
      w.imageNumber == v.imageNumber && ShowsSelection(w)
      && w.dirImageList == v.dirImageList && w.timer == v.timer
  {
    NavigationKeepsValid(v);
    var u := PrevImage(v).after;
    var w := NextImage(u).after;
    StepBackThenForward(v.imageNumber, |v.dirImageList|);
    assert w.imageNumber == (u.imageNumber + 1) % |u.dirImageList|;
  }

  /** A window showing its selection, whose scratch thumbnail is of that file,
      is left exactly as it was by forward then back. */
  lemma NextThenPrevRestoresSettledWindow(v: ViewerState)
    requires Valid(v) && v.navEnabled && ShowsSelection(v) && v.thumbOf == Some(v.imgFilePath)
    ensures PrevImage(NextImage(v).after).after == v
  {
    NextThenPrev(v);
  }

  lemma StartIsValid()
    ensures Valid(Start) && !Start.navEnabled && Start.timer.None?
  {
  }

  /** Every event keeps the invariant, except an open whose rescan found
      images but not the opened file: ValueError then leaves the old index
      (and enabled navigation) against the new list.  A reopen within the
      known folder that misses the file raises too, but keeps the invariant. */
  lemma EventKeepsValid(v: ViewerState, e: Event)
    requires Valid(v) && Enabled(v, e)
    ensures Valid(Apply(v, e).after)
      || (&& e.ImageChosen? && !SameFolder(v, ImageFolderByReplace(e.chosen))
          && Apply(v, e).Raised? && Apply(v, e).fault == NotInList)
  {
    match e
    case ImageChosen(chosen, listing) =>
      if chosen != "" {
        if SameFolder(v, ImageFolderByReplace(chosen)) {
          OpenImageSameFolder(v, chosen, listing);
        } else {
          OpenImageOtherFolder(v, chosen, listing);
        }
      }
    case FolderChosen(chosen, listing) =>
    case BackPressed =>
      NavigationKeepsValid(v);
    case ForwardPressed =>
      NavigationKeepsValid(v);
    case LabelResized(now) =>
    case TimerTimeout =>
  }

  /** Nothing but a resize arms the timer and nothing but its timeout stops
      it: opening files or folders and navigating leave it as it was. */
  lemma OnlyResizeAndTimeoutTouchTimer(v: ViewerState, e: Event)
    requires Enabled(v, e)
    ensures !e.LabelResized? && !e.TimerTimeout? ==> Apply(v, e).after.timer == v.timer
    ensures e.LabelResized? && v.timer.Some? ==> Apply(v, e).after.timer == v.timer
    ensures e.TimerTimeout? ==> Apply(v, e).after.timer.None?
  {
  }

  /** A thumbnail on screen always has a full-quality redraw pending: the
      timer is running. */
  predicate PendingUpgrade(v: ViewerState)
  {
    v.display.Shown? && v.display.quality == Thumbnail ==> v.timer.Some?
  }

  /** Only a resize puts a thumbnail on screen: after any other event a
      thumbnail shown is the one that was already shown. */
  lemma OnlyResizeShowsThumbnail(v: ViewerState, e: Event)
    requires Enabled(v, e) && !e.LabelResized?
    ensures var d := Apply(v, e).after.display;
      d.Shown? && d.quality == Thumbnail ==> d == v.display
  {
    match e
    case ImageChosen(chosen, listing) =>
      if chosen != "" {
        if SameFolder(v, ImageFolderByReplace(chosen)) {
          OpenImageSameFolder(v, chosen, listing);
        } else {
          OpenImageOtherFolder(v, chosen, listing);
        }
      }
    case _ =>
  }

  /** Every event keeps a thumbnail on screen covered by a running timer: a
      resize arms the timer before it shows the thumbnail, and only the
      timeout stops it, after a full-quality redraw. */
  lemma EventKeepsPendingUpgrade(v: ViewerState, e: Event)
    requires PendingUpgrade(v) && Enabled(v, e)
    ensures PendingUpgrade(Apply(v, e).after)
  {
    if !e.LabelResized? {
      OnlyResizeShowsThumbnail(v, e);
      OnlyResizeAndTimeoutTouchTimer(v, e);
    }
  }

  /** The scratch thumbnail is rewritten only by a full render, and an open
      that neither rescans-and-finds the file nor redraws (a reopen within the
      known folder, an empty rescan, a rescan missing the file) does not
      render.  With a redraw pending, the timeout then shows the new file, but
      the next resize puts the previous file's thumbnail back on screen. */
  lemma ResizeShowsPreviousThumbnail(v: ViewerState, a: string, chosen: string, listing: seq<string>, now: int)
    requires v.thumbOf == Some(a) && v.timer.Some? && chosen != ""
    requires SameFolder(v, ImageFolderByReplace(chosen)) || chosen !in ImageList(listing)
    ensures var w1 := Apply(v, ImageChosen(chosen, listing)).after;
      var w2 := Apply(w1, TimerTimeout).after;
      var w3 := Apply(w2, LabelResized(now)).after;
      && w2.display == Shown(Full, chosen)
      && w3.imgFilePath == chosen && w3.display == Shown(Thumbnail, a)
  {
    if SameFolder(v, ImageFolderByReplace(chosen)) {
      OpenImageSameFolder(v, chosen, listing);
    } else {
      OpenImageOtherFolder(v, chosen, listing);
    }
  }

  /** A timer armed for an earlier file and firing after a new selection
      upgrades the NEW file: the timeout reads the current path.  (A later
      resize may still show an older thumbnail: `ResizeShowsPreviousThumbnail`.) */
  lemma NoStaleUpgrade(v: ViewerState, e: Event)
    requires v.timer.Some? && Enabled(v, e) && !e.LabelResized? && !e.TimerTimeout?
    ensures var w := Apply(v, e).after;
      w.timer.Some? && TimerFired(w).display == Shown(Full, w.imgFilePath)
  {
    OnlyResizeAndTimeoutTouchTimer(v, e);
  }

  lemma PngGlobExample()
    ensures Glob(["/q/C.PNG", "/q/d.png"], "png") == ["/q/d.png"]
  {
    var listing := ["/q/C.PNG", "/q/d.png"];
    assert !EndsWith("/q/C.PNG", ".png") && EndsWith("/q/d.png", ".png");
    assert Glob(listing[1..], "png") == ["/q/d.png"] + Glob(listing[2..], "png");
  }

  lemma OtherGlobsExample()
    ensures forall e | e in FileTypes[1..] :: Glob(["/q/C.PNG", "/q/d.png"], e) == []
  {
    var listing := ["/q/C.PNG", "/q/d.png"];
    forall e | e in FileTypes[1..]
      ensures Glob(listing, e) == []
    {
      EndsWithNextToLast("/q/C.PNG", "." + e);
      EndsWithNextToLast("/q/d.png", "." + e);
      GlobNone(listing, e);
    }
  }

  lemma GlobAllExample(listing: seq<string>)
    requires Glob(listing, "png") == ["/q/d.png"]
    requires forall e | e in FileTypes[1..] :: Glob(listing, e) == []
    ensures GlobAll(listing, FileTypes) == ["/q/d.png"]
  {
    assert GlobAll(listing, FileTypes[4..]) == [];
    assert GlobAll(listing, FileTypes[3..]) == [];
    assert GlobAll(listing, FileTypes[2..]) == [];
    assert GlobAll(listing, FileTypes[1..]) == [];
  }

  lemma ImageListExample(listing: seq<string>)
    requires GlobAll(listing, FileTypes) == ["/q/d.png"]
    ensures ImageList(listing) == ["/q/d.png"]
  {
    assert Normalize("/q/d.png") == "/q/d.png";
    assert Collected(listing) == ["/q/d.png"];
  }

  /** The case-sensitive `*.png` glob misses `/q/C.PNG`: the folder's list
      holds only `/q/d.png`. */
  lemma UpperCaseExtensionMissed()
    ensures ImageList(["/q/C.PNG", "/q/d.png"]) == ["/q/d.png"]
  {
    PngGlobExample();
    OtherGlobsExample();
    GlobAllExample(["/q/C.PNG", "/q/d.png"]);
    ImageListExample(["/q/C.PNG", "/q/d.png"]);
  }

  lemma UpperCaseFileFolder()
    ensures ImageFolderByReplace("/q/C.PNG") == "/q/"
  {
    assert "/q" + "/" + "C.PNG" == "/q/C.PNG";
    ByReplaceOfChild("/q", "C.PNG");
    assert DeleteAll("/q", "C.PNG") == "/q";
  }

  /** Opening `/q/C.PNG` while `/p/b.png` (entry 1 of two) is shown: the
      rescan of `/q/` finds only `/q/d.png` and ValueError is raised with the
      old index still in place. */
  lemma FailedRescanStep(v: ViewerState, chosen: string, listing: seq<string>)
    requires v == ViewerState("/p/", ["/p/a.png", "/p/b.png"], 1, "/p/b.png", true,
                              Some("/p/b.png"), None, Shown(Full, "/p/b.png"))
    requires chosen == "/q/C.PNG" && listing == ["/q/C.PNG", "/q/d.png"]
    ensures var r := OpenImageAsWritten(v, chosen, listing);
      && r.Raised? && r.fault == NotInList && r.after.dirImageList == ["/q/d.png"]
      && r.after.imageNumber == 1 && r.after.navEnabled
  {
    assert ImageFolderByReplace(chosen) == "/q/" by { UpperCaseFileFolder(); }
    assert ImageList(listing) == ["/q/d.png"] by { UpperCaseExtensionMissed(); }
    assert !SameFolder(v, ImageFolderByReplace(chosen));
    OpenImageOtherFolder(v, chosen, listing);
  }

  /** A concrete run of the exception path: the rescan for `/q/C.PNG` finds
      only `/q/d.png`, ValueError leaves index 1 against a one-entry list with
      navigation still enabled, and the next forward press raises IndexError. */
  lemma FailedRescanLeavesStaleIndex(v: ViewerState, chosen: string, listing: seq<string>)
    requires v == ViewerState("/p/", ["/p/a.png", "/p/b.png"], 1, "/p/b.png", true,
                              Some("/p/b.png"), None, Shown(Full, "/p/b.png"))
    requires chosen == "/q/C.PNG" && listing == ["/q/C.PNG", "/q/d.png"]
    ensures Valid(v)
    ensures var r := Apply(v, ImageChosen(chosen, listing));
      && r.Raised? && r.fault == NotInList && !Valid(r.after) && r.after.navEnabled
      && NextImage(r.after).Raised? && NextImage(r.after).fault == IndexOutOfRange
  {
    assert Valid(v) by {
      assert forall i :: 0 <= i < |v.dirImageList| ==> v.dirImageList[i] in {"/p/a.png", "/p/b.png"};
    }
    var r := Apply(v, ImageChosen(chosen, listing));
    assert && r.Raised? && r.fault == NotInList && r.after.navEnabled
           && r.after.dirImageList == ["/q/d.png"] && r.after.imageNumber == 1 by {
      assert r == OpenImageAsWritten(v, chosen, listing);
      FailedRescanStep(v, chosen, listing);
    }
    StaleIndexRaises(r.after);
  }

  /** Index 1 against a one-entry list: the window is not valid, and forward
      stores index 2 and raises IndexError. */
  lemma StaleIndexRaises(w: ViewerState)
    requires w.dirImageList == ["/q/d.png"] && w.imageNumber == 1 && w.navEnabled
    ensures !Valid(w)
    ensures NextImage(w).Raised? && NextImage(w).fault == IndexOutOfRange
  {
    assert NextImage(w).after.imageNumber == 2;
  }
}

=== FILE: wrappers.dfy ===
/** The optional-value datatype shared by the other modules. */
module Wrappers {

  /** A value that may be absent: Python's `None` versus a present value. */
  datatype Option<+T> = None | Some(value: T)
}
